=== FILE: README.md ===
# Flash translation layer of disk.c, modelled in Dafny

`disk.c` presents a flash medium, whose pages can only be written once
between erases of the whole flash block that holds them, as an array of
rewritable logical disk blocks. It keeps four tables:
- a forward map from logical block to flash page (`block_to_page`);
- a reverse map from page to logical block (`page_to_block`);
- a per-page status, Free, Valid or Invalid (`page_status`);
- a per-block erase counter (`erase_count`).

A write never overwrites in place. The old page is marked Invalid, and the
data goes to a Free page chosen by `find_free_page`, which prefers the
least-erased block. When no page is Free, `select_block_to_clean` picks the
block with the most Invalid pages. `clean_block` then copies its current
Valid pages elsewhere and erases it.

This project models that layer as pure functions on an immutable `Disk`
record. The flash medium is part of the record, holding one data value per
page. On top of the model it proves the following:
- **the contracts of each routine as written:**
  - the allocator's choice of page;
  - the choice of cleaning victim;
  - what cleaning does to every page and every mapping;
  - reads and writes;
- **where disk.c goes wrong:** concrete states in which it loses data or
  runs out of pages while pages are Free;
- **a corrected layer** (module `Repaired`), for which it proves:
  - a write changes what the written block reads, and nothing else;
  - cleaning is invisible to readers;
  - a write never runs out of pages while there are fewer logical blocks
    than flash pages.

Modules:
- `Counting`: occurrence counts over sequences and a pigeonhole lemma.
- `Tables`: the `Disk` record and its well-formedness; block geometry; the
  coherence invariant of the forward map, reverse map and status table; the
  value a read yields; `disk_create`; the table updates shared by writing and
  cleaning.
- `Allocator`: `find_free_page` and the wear-levelling scans.
- `Cleaner`: `select_block_to_clean` and `clean_block` as written, with what
  cleaning keeps and what it loses.
- `Translation`: `disk_read` and `disk_write` as written.
- `Scenarios`: concrete runs, as disk.c writes them and corrected.
- `Repaired`: the corrected allocator, cleaner and write, with the layer's
  refinement of an array of logical blocks (`Memory`).

Where the behaviour a flash translation layer is meant to have and `disk.c`
disagree, the model follows `disk.c`:
- `disk_read` returns the contents of the mapped page without checking its
  status or its reverse pointer. A checked read would verify both and fail on
  a mismatch.
- `find_free_page` tries only the least-erased block (block 0 is the seed,
  and ties keep the lower number). When that block is full, it takes the
  first Free page of the lowest-numbered remaining block, whatever that
  block's erase count. Wear levelling would pick the least-erased block among
  the blocks that have a Free page.
- An exhausted write is meant to fail with no table changed. `disk_write`
  has no failure path: it has already retired the old page and cleaned up to
  two blocks. It then passes page -1 to the flash write (disk.c:162), stores
  -1 as the block's forward entry so that the block becomes unmapped
  (disk.c:165), uses index -1 for the reverse-map and status stores
  (disk.c:166-167), counts the write and reports success (disk.c:169-170).
- The `next_free_page` field is never used.

## Model

| member | source | states |
|---|---|---|
| Tables.DiskCreate | disk.c:49-80 | A new layer satisfies the coherence invariant. Every logical block is unmapped and reads zero. Every page is Free with no owner, so the Free count is the page count. Every erase counter and both operation counters are zero. |
| Tables.Retire | disk.c:124-129 | Retiring a logical block's current page, if it has one, marks that page Invalid and clears its reverse entry. The forward map, the medium, the counters and every other page entry are kept. An unmapped block leaves the state as it was. |
| Tables.CommitUpdates | disk.c:124-167 | Retiring a block's old page and installing new data on a Free page keeps the maps coherent. The block reads the new data and every other block reads as before. The old page becomes Invalid and unowned, exactly one Free page is used, and no erase counter moves. |
| Tables.Install | disk.c:162-167 | Installing data for a logical block on a page writes the data to that page, points the block at the page and the page back at the block, and marks the page Valid. No other entry, erase counter or operation counter changes. |
| Tables.EraseBlock | disk.c:224-233 | Erasing block c makes each of its pages Free, unowned and zero, and raises c's erase counter by one. Pages outside c, the forward map and the operation counters are kept. |
| Tables.EraseFrees | disk.c:224-233 | After erasing block c, the number of Free pages is the number before plus the number of c's pages that were not Free. |
| Allocator.LeastErased | disk.c:239-250 | The wear-levelling scan returns the seed or a later non-avoided block with a strictly lower count. Its count is minimal among the scanned non-avoided blocks, and it is the first block with that count. |
| Allocator.BestBlock | disk.c:238-250 | The block tried first has the least erase count among block 0 and every non-avoided block, and is the first such block. It is the avoided block only when that is block 0. |
| Allocator.MinEraseBlock | disk.c:145-154 | The fallback victim is the first block of least erase count. |
| Allocator.FirstFree | disk.c:254-258 | The scan of a page range returns -1 exactly when no page in the range is Free. Otherwise it returns the first Free page. |
| Allocator.FirstFreeIn | disk.c:252-258 | The scan of one block returns -1 exactly when the block is full. Otherwise it returns the block's first Free page. |
| Allocator.ScanBlocks | disk.c:260-274 | The second loop returns -1 exactly when no page outside the avoided and already-tried blocks is Free. Otherwise it returns the first such Free page. |
| Allocator.FindFreePage | disk.c:237-275 | The result is -1 or a Free page. It is -1 exactly when no page outside the avoided block is Free and the tried block is full. It lies in the avoided block only when that is block 0 and block 0 was tried. It is the tried block's first Free page when there is one, and otherwise the first Free page outside the avoided block. |
| Cleaner.MostInvalid | disk.c:283-298 | The victim loop returns a block with the largest Invalid count, and no earlier block has as many. |
| Cleaner.SelectBlockToClean | disk.c:278-306 | The result is -1 exactly when no block has an Invalid page. Otherwise it is the first block with the most Invalid pages. |
| Cleaner.MigratePage | disk.c:199-219 | One iteration of the migration loop either changes nothing or turns a Free page into the Valid new page of a block that moved. Pages outside the victim end up owned by the blocks that point at them. |
| Cleaner.Migrate | disk.c:198-222 | The whole migration loop changes pages and mappings only in those ways. |
| Cleaner.CleanBlock | disk.c:193-234 | The victim's erase counter goes up by one and no other counter moves. Every victim page ends Free, unowned and zero. Pages outside the victim that were in use are untouched. A Free page outside the victim either stays Free with its owner entry and data, or becomes Valid and the current page of a block that moved there. A block whose mapping changed was in the victim on a page that pointed back at it, and now sits on a formerly Free page. If that page is outside the victim, it is Valid, owned by the block and holds the old data. If it is inside the victim, the victim is block 0. |
| Cleaner.MigrateEvacuates | disk.c:198-222 | When the victim is not block 0 and there is enough Free space outside it, migration moves every logical block out of the victim. |
| Cleaner.CleanBlockPreserves | disk.c:193-234 | When the victim is not block 0 and the Free pages outside it can hold its Valid pages, cleaning keeps the maps coherent, every block reads as before, and no block is left in the victim. |
| Cleaner.CleanWithoutSpareDrops | disk.c:211-233 | With no Free page outside the victim, cleaning leaves every logical block of the victim on a page the erase has made Free. Such a block reads zero, and the maps no longer agree. |
| Translation.DiskRead | disk.c:88-108 | A block number out of range is refused. Otherwise the result is the block's view: zero when unmapped, else the contents of its page. Only the read counter changes. |
| Translation.CleanAndRetry | disk.c:136-141 | Cleaning a victim and retrying while avoiding it raises the victim's erase counter by one. The page returned is -1 or a Free page, and it lies in the victim only when the victim is block 0. |
| Translation.Reclaim | disk.c:134-159 | The cleaning path of a write keeps the shape and the operation counters. It raises at least one erase counter and lowers none, and yields -1 or a Free page. |
| Translation.Allocate | disk.c:131-159 | Allocation returns -1 or a Free page and never lowers an erase counter. While some page is Free it cleans nothing. |
| Translation.Commit | disk.c:161-169 | The commit stores the data on the page, maps the block to the page and the page back to the block, and marks the page Valid. No other table entry changes. The block reads the data, the write is counted and no erase counter moves. |
| Translation.DiskWrite | disk.c:115-171 | Out-of-range block numbers, and only those, are refused. A completed write maps the block to a Valid page that points back at it and holds the new data. It counts the write, leaves the read counter alone and never lowers an erase counter. If the block had a page and now sits on another, the old page no longer points back at it, with or without cleaning. When no page is found, the model stops before disk.c:162: no write has been counted yet, the read counter is unchanged and no erase counter has gone down. |
| Translation.CleanKeepsReleased | disk.c:199-233 | Cleaning never moves a logical block whose page does not point back at it, and never makes that page point back at it. |
| Translation.AllocateReleases | disk.c:124-159 | Once the old page of the block is retired, the block's forward entry still names it but the page no longer points back at it, and allocation, with or without cleaning, keeps it that way. |
| Translation.WriteNoGc | disk.c:124-169 | While some page is Free, a write completes without cleaning. The maps stay coherent, the block reads the new data and every other block reads as before. The old page is Invalid and unowned, one Free page is used, and no erase counter moves. |
| Translation.ReadAfterWrite | disk.c:96-106 | After a write that needed no cleaning, the written block reads the new data and every other block reads its old data. |
| Translation.RetryAfterCleanFails | disk.c:136-141 | When cleaning starts (no page Free) with a victim other than block 0, the retry that avoids the victim finds no page. |
| Translation.GcDropsVictimBlocks | disk.c:134-141 | When a write has to clean, every other logical block mapped into the victim reads zero right after that cleaning, and the maps no longer agree. |
| Scenarios.ThreeWritesReached | disk.c:115-171 | Writing 7, 8, 9 to blocks 0, 1, 0 of a fresh layer with three one-page blocks succeeds each time, and ends in the stated state. |
| Scenarios.FourthWriteFaults | disk.c:132-167 | In that state, writing block 0 cleans two blocks and still finds no page, although page 1 is Free. At the point where the model stops, before disk.c:162, block 0's forward entry is still on its retired page. |
| Scenarios.ZeroVictimLoses | disk.c:237-257 | Called directly, cleaning block 0 copies logical block 0 into block 0 itself although a page of block 1 is Free. The erase then wipes it, and a block that read 5 reads 0. |
| Scenarios.ZeroVictimKept | disk.c:237-257 | On the same state, the corrected allocator avoiding block 0 offers page 3 of block 1, and corrected cleaning of block 0 keeps the block reading 5. |
| Scenarios.FourthWriteSucceeds | disk.c:115-171 | With the corrected write, the fourth write completes: block 0 reads 10 and block 1 still reads 8. |
| Scenarios.DroppedBlockAliases | disk.c:132-167 | Four logical blocks on two full 2-page blocks; writing block 0 retires its page, cleans block 1 and drops logical block 1, then cleans block 0 and moves logical block 3 onto the page block 1 still points at. The write completes, and block 1, which read 20, now reads 40, the data of block 3. |
| Repaired.BestBlock | disk.c:238-250 | The corrected first choice is never the avoided block. It has the least erase count among the other blocks, is the first such block, and is -1 only when the sole block is avoided. |
| Repaired.FindFreePage | disk.c:237-275 | The corrected allocator returns -1 exactly when no page outside the avoided block is Free, and otherwise a Free page outside it. It prefers the first Free page of the least-erased other block. It agrees with disk.c whenever the avoided block is not block 0. |
| Repaired.Snapshot | disk.c:198-209 | The current pages of the victim are read into memory. The blocks are distinct, each is mapped into the victim and carries the data it reads, every current page is included, and their number is the victim's Valid count on a coherent state. |
| Repaired.Evict | disk.c:224-233 | Erasing the victim unmaps exactly the blocks mapped into it, and every other block keeps its mapping and its data. The victim's erase counter goes up by one. The Free count grows by the victim's non-Free pages, and coherence is kept. |
| Repaired.ReadmitRestores | disk.c:211-219 | Writing the held pages back gives each held block its data and leaves every other block's mapping and data alone. It keeps coherence and uses one Free page per held page. |
| Repaired.CleanBlock | disk.c:193-234 | Corrected cleaning raises the victim's erase counter by one and moves no other counter. |
| Repaired.CleanPreserves | disk.c:193-234 | Corrected cleaning keeps coherence, every block reads as before, and unmapped blocks stay unmapped. Each Invalid page of the victim becomes a Free page. |
| Repaired.Unmap | disk.c:124-129 | Dropping a block's mapping leaves it unmapped and its old page Invalid. On a coherent state, coherence, the Free count and every other block's data are kept. |
| Repaired.DiskWrite | disk.c:115-171 | Out-of-range block numbers, and only those, are refused. A completed write leaves the block reading the new data and counts the write. Exhaustion counts nothing. |
| Repaired.WriteCorrect | disk.c:115-171 | A corrected write keeps coherence. When it completes, only the written block's data changes. |
| Repaired.ValidBound | disk.c:30-33 | On a coherent state there are no more Valid pages than logical blocks. |
| Repaired.NeverExhausted | disk.c:134-159 | A corrected write on a coherent state always completes while there are fewer logical blocks than flash pages. |
| Repaired.ExhaustedUnchanged | disk.c:134-159 | A corrected write reports exhaustion only when the block was unmapped and every page is Valid, and then nothing has changed. |
| Repaired.Memory | disk.c:88-108 | The abstract disk: entry `b` is what reading block `b` returns. |
| Repaired.WriteRefines | disk.c:115-171 | A completed corrected write is an array store on the abstract disk. |
| Repaired.CleanRefines | disk.c:193-234 | Corrected cleaning leaves the abstract disk unchanged. |

## Left out

- Console output (`printf`, `fprintf`) and `disk_report` are left out. They only print counters and release memory.
- Memory allocation (`malloc`, `free`) is left out. The tables are sequences.
- The flash driver is reduced to operations on the `flash` field:
  - `flash_read` returns a page's value;
  - `flash_write` replaces it;
  - `flash_erase` zeroes a block.
  `flash_npages` and `flash_npages_per_block` become the layer's geometry.
- Each page holds one `Data` value (an integer) instead of a byte buffer of
  `DISK_BLOCK_SIZE` bytes. Zero data is the value 0.
- Counters are unbounded naturals. `disk.c` stores the erase counters and
  the operation counters in 32-bit `int`, whose wrap-around is not
  modelled.
- Tables.DiskCreate: requires a whole number of flash blocks
  (`flash_pages % pages_per_block == 0`) and at least one block, because
  `disk.c` reads `erase_count[0]` unconditionally. The model does not follow
  trailing pages left over by the integer division.
- Translation.DiskWrite: when no page is found, the model stops with
  `WriteFault` and the state reached so far. It leaves out what `disk.c`
  does after that point, in this order:
  - line 162 passes page -1 to the flash write;
  - line 165 stores -1 into the block's forward entry, which is in range,
    so the block becomes unmapped;
  - lines 166 and 167 use page index -1 for the reverse-map and status
    stores, which lie outside their tables;
  - lines 169-170 count the write and return 0, reporting success.
- Repaired.DiskWrite: the forced clean of the least-erased block is left
  out. `Repaired.ExhaustedUnchanged` shows that after the corrected clean a
  write can only be exhausted when every page is Valid, and then no clean
  frees a page.
- Concurrency is left out: the layer is single-threaded.

## Findings

| source | as written | input that shows it | evidently intended | confidence | as-written member | corrected member |
|---|---|---|---|---|---|---|
| disk.c:239-257 | The erase-count scan is seeded with block 0 even when block 0 is the block to avoid, so `find_free_page(d, 0)` can return a page of block 0. | `Scenarios.ZeroVictimState` (two 2-page blocks, logical block 0 holding 5 on page 1, pages 0 and 3 Free) with `clean_block(0)` called directly: block 0 is copied to page 0, which is then erased, and it reads 0. `disk_write` never cleans block 0 while block 0 has a Free page, so through a write the quirk only lets the retry take a page of the block just erased. | Never offer a page of the avoided block. | proved, not executed | Scenarios.ZeroVictimLoses | Repaired.FindFreePage |
| disk.c:211-233 | When `find_free_page` finds no page for a Valid page of the victim, the page is skipped and then erased, while its block stays mapped to it. | Any write that has to clean (no page Free): right after that cleaning, every other logical block mapped into the victim reads zero. A later clean in the same write can move another block onto that page, and then the dropped block reads that block's data (`Scenarios.DroppedBlockAliases`). | Keep the page's data across the erase and write it back, so cleaning never changes what a block reads. | proved, not executed | Translation.GcDropsVictimBlocks | Repaired.CleanPreserves |
| disk.c:134-167 | After cleaning, the retry avoids the block just cleaned, which holds the only Free pages. When the fallback retry fails too, page -1 is passed to the flash write, the block's forward entry is set to -1, page -1 is used for the reverse-map and status stores, and the write is reported as a success. The old page has already been retired. | Three one-page blocks and two logical blocks: write 7, 8, 9 to blocks 0, 1, 0, then 10 to block 0. | Look for a page anywhere after cleaning, and report exhaustion instead of using page -1. The prototype at disk.c:40 names the parameter `preferred_block`, while the definition at disk.c:237 names it `avoid_block`, so the retry was evidently not meant to exclude the block just cleaned. With fewer logical blocks than pages, a write then always completes. | proved, not executed | Scenarios.FourthWriteFaults | Repaired.NeverExhausted |

=== FILE: allocator.dfy ===
/** `find_free_page` as disk.c writes it: pick the least-erased block, take its
    first Free page, and otherwise take the first Free page of any block
    other than the avoided one and the one already tried. */
module Allocator {

  import opened Tables

  /** The erase-count scan of `find_free_page` (and of the fallback in
      `disk_write`): starting from candidate `best`, walk blocks `i..` and
      keep a block only when its count is strictly lower, skipping `avoid`. */
  function LeastErased(ec: seq<nat>, avoid: int, i: nat, best: nat): (r: nat)
    requires best < i <= |ec|
    ensures r < |ec|
    ensures r == best || (i <= r && r != avoid && ec[r] < ec[best])
    ensures ec[r] <= ec[best]
    ensures forall c :: i <= c < |ec| && c != avoid ==> ec[r] <= ec[c]
    ensures forall c :: i <= c < r && c != avoid ==> ec[r] < ec[c]
    decreases |ec| - i
  {
    if i == |ec| then best
    else if i == avoid then LeastErased(ec, avoid, i + 1, best)
    else if ec[i] < ec[best] then LeastErased(ec, avoid, i + 1, i)
    else LeastErased(ec, avoid, i + 1, best)
  }

  /** The block `find_free_page` tries first. The scan is seeded with block 0
      whatever `avoid` is, so the candidates are block 0 and every block other
      than `avoid`; among them it is the first one of least erase count. */
  function BestBlock(d: Disk, avoid: int): (r: nat)
    requires Wf(d)
    ensures r < d.flashBlocks
    ensures r == 0 || r != avoid
    ensures forall c :: 0 <= c < d.flashBlocks && (c == 0 || c != avoid) ==>
              d.eraseCount[r] <= d.eraseCount[c]
    ensures forall c :: 0 <= c < r && (c == 0 || c != avoid) ==>
              d.eraseCount[r] < d.eraseCount[c]
  {
    LeastErased(d.eraseCount, avoid, 1, 0)
  }

  /** The fallback victim of `disk_write`: the first block of least erase count. */
  function MinEraseBlock(d: Disk): (r: nat)
    requires Wf(d)
    ensures r < d.flashBlocks
    ensures forall c :: 0 <= c < d.flashBlocks ==> d.eraseCount[r] <= d.eraseCount[c]
    ensures forall c :: 0 <= c < r ==> d.eraseCount[r] < d.eraseCount[c]
  {
    LeastErased(d.eraseCount, -1, 1, 0)
  }

  /** The first Free page in [lo, hi), or -1. */
  function FirstFree(s: seq<Status>, lo: int, hi: int): (r: int)
    requires 0 <= lo && hi <= |s|
    ensures r == -1 <==> forall p :: lo <= p < hi ==> s[p] != Free
    ensures r != -1 ==> lo <= r < hi && s[r] == Free
    ensures r != -1 ==> forall p :: lo <= p < r ==> s[p] != Free
    decreases hi - lo
  {
    if lo >= hi then -1
    else if s[lo] == Free then lo
    else FirstFree(s, lo + 1, hi)
  }

  /** The first Free page of block `c`, or -1. */
  function FirstFreeIn(d: Disk, c: int): (r: int)
    requires Wf(d) && 0 <= c < d.flashBlocks
    ensures r == -1 <==> BlockFull(d, c)
    ensures r != -1 ==> 0 <= r < d.flashPages && InBlock(d, r, c) && d.pageStatus[r] == Free
    ensures r != -1 ==> forall p :: BlockStart(d, c) <= p < r ==> d.pageStatus[p] != Free
  {
    BlockBounds(d, c);
    var lo := BlockStart(d, c);
    var r := FirstFree(d.pageStatus, lo, lo + d.pagesPerBlock);
    BlockRange(d, c, lo);
    r
  }

  /** The pages of block `c` are the range starting at `lo`, of one block's length. */
  lemma BlockRange(d: Disk, c: int, lo: int)
    requires Wf(d) && 0 <= c < d.flashBlocks && lo == BlockStart(d, c)
    ensures 0 <= lo && lo + d.pagesPerBlock <= d.flashPages
    ensures forall p :: InBlock(d, p, c) <==> lo <= p < lo + d.pagesPerBlock
    ensures BlockFull(d, c) <==> forall p :: lo <= p < lo + d.pagesPerBlock ==> d.pageStatus[p] != Free
  {
    BlockBounds(d, c);
  }

  /** Page `p` lies neither in block `avoid` nor in block `skip`. */
  predicate Eligible(d: Disk, p: int, avoid: int, skip: int) {
    !InBlock(d, p, avoid) && !InBlock(d, p, skip)
  }

  /** No eligible page in [lo, hi) is Free. */
  predicate NoneFree(d: Disk, lo: int, hi: int, avoid: int, skip: int)
    requires Wf(d) && 0 <= lo && hi <= d.flashPages
  {
    forall p :: lo <= p < hi && Eligible(d, p, avoid, skip) ==> d.pageStatus[p] != Free
  }

  /** The second loop of `find_free_page`: blocks `c..` in order, skipping
      `avoid` and `skip`, first Free page found. */
  function ScanBlocks(d: Disk, avoid: int, skip: int, c: nat): (r: int)
    requires Wf(d) && c <= d.flashBlocks
    ensures 0 <= BlockStart(d, c) <= d.flashPages
    ensures r == -1 <==> NoneFree(d, BlockStart(d, c), d.flashPages, avoid, skip)
    ensures r != -1 ==>
      && BlockStart(d, c) <= r < d.flashPages && d.pageStatus[r] == Free
      && Eligible(d, r, avoid, skip) && NoneFree(d, BlockStart(d, c), r, avoid, skip)
    decreases d.flashBlocks - c
  {
    if c == d.flashBlocks then
      BlockStartEnds(d);
      -1
    else
      BlockBounds(d, c);
      var rest := ScanBlocks(d, avoid, skip, c + 1);
      var f := if c == avoid || c == skip then -1 else FirstFreeIn(d, c);
      ScanStep(d, avoid, skip, c, f, rest);
      if f >= 0 then f else rest
  }

  /** One block of `ScanBlocks`: what block `c` contributes, given the
      result `rest` of the blocks after it. */
  lemma ScanStep(d: Disk, avoid: int, skip: int, c: nat, f: int, rest: int)
    requires Wf(d) && c < d.flashBlocks
    requires 0 <= BlockStart(d, c) && BlockStart(d, c + 1) == BlockStart(d, c) + d.pagesPerBlock
    requires BlockStart(d, c + 1) <= d.flashPages
    requires f == (if c == avoid || c == skip then -1 else FirstFreeIn(d, c))
    requires rest == -1 <==> NoneFree(d, BlockStart(d, c + 1), d.flashPages, avoid, skip)
    requires rest != -1 ==>
      && BlockStart(d, c + 1) <= rest < d.flashPages && d.pageStatus[rest] == Free
      && Eligible(d, rest, avoid, skip) && NoneFree(d, BlockStart(d, c + 1), rest, avoid, skip)
    ensures var r := if f >= 0 then f else rest;
      && (r == -1 <==> NoneFree(d, BlockStart(d, c), d.flashPages, avoid, skip))
      && (r != -1 ==>
            && BlockStart(d, c) <= r < d.flashPages && d.pageStatus[r] == Free
            && Eligible(d, r, avoid, skip) && NoneFree(d, BlockStart(d, c), r, avoid, skip))
  {
    var lo := BlockStart(d, c);
    var mid := BlockStart(d, c + 1);
    // Within block c, either no page is eligible or f is its first Free page.
    assert NoneFree(d, lo, mid, avoid, skip) <==> f == -1 by {
      if c == avoid || c == skip {
        forall p | lo <= p < mid
          ensures !Eligible(d, p, avoid, skip)
        {
          assert InBlock(d, p, c);
        }
      } else {
        OtherBlocksDisjoint(d, c, avoid);
        OtherBlocksDisjoint(d, c, skip);
        forall p | lo <= p < mid
          ensures Eligible(d, p, avoid, skip)
        {
          assert InBlock(d, p, c);
        }
      }
    }
    if f >= 0 {
      OtherBlocksDisjoint(d, c, avoid);
      OtherBlocksDisjoint(d, c, skip);
      assert Eligible(d, f, avoid, skip);
      forall p | lo <= p < f && Eligible(d, p, avoid, skip)
        ensures d.pageStatus[p] != Free
      {
      }
    } else {
      assert NoneFree(d, lo, mid, avoid, skip);
      if rest != -1 {
        forall p | lo <= p < rest && Eligible(d, p, avoid, skip)
          ensures d.pageStatus[p] != Free
        {
          if p >= mid {
            assert mid <= p < rest;
          }
        }
      }
    }
  }

  /** The pages of block `c` lie in no other block. */
  lemma OtherBlocksDisjoint(d: Disk, c: int, e: int)
    requires Wf(d) && c != e
    ensures forall p :: InBlock(d, p, c) ==> !InBlock(d, p, e)
  {
    forall p | InBlock(d, p, c)
      ensures !InBlock(d, p, e)
    {
      if InBlock(d, p, e) {
        BlocksDisjoint(d, p, c, e);
      }
    }
  }

  /** `find_free_page(d, avoid)`. The result is -1 or a Free page. It is -1
      only when no page outside `avoid` is Free. It lies in `avoid` only when
      `avoid` is block 0 and block 0 was the least-erased candidate (the scan
      is seeded with block 0 unconditionally). When the least-erased block
      has a Free page the result is its first one; otherwise it is the first
      Free page outside `avoid`. */
  function FindFreePage(d: Disk, avoid: int): (r: int)
    requires Wf(d)
    ensures r == -1 || (0 <= r < d.flashPages && d.pageStatus[r] == Free)
    ensures r == -1 <==> NoFreeOutside(d, avoid) && BlockFull(d, BestBlock(d, avoid))
    ensures r != -1 && InBlock(d, r, avoid) ==> avoid == 0 && BestBlock(d, avoid) == 0
    ensures !BlockFull(d, BestBlock(d, avoid)) ==>
              r == FirstFreeIn(d, BestBlock(d, avoid))
    ensures BlockFull(d, BestBlock(d, avoid)) && r != -1 ==>
              !InBlock(d, r, avoid) &&
              forall p :: 0 <= p < r && !InBlock(d, p, avoid) ==> d.pageStatus[p] != Free
  {
    var best := BestBlock(d, avoid);
    var first := FirstFreeIn(d, best);
    var scan := ScanBlocks(d, avoid, best, 0);
    BlockStartEnds(d);
    FindStep(d, avoid, best, first, scan);
    if first >= 0 then first else scan
  }

  /** How the two loops of `find_free_page` combine. */
  lemma FindStep(d: Disk, avoid: int, best: nat, first: int, scan: int)
    requires Wf(d) && best < d.flashBlocks && (best == 0 || best != avoid)
    requires first == FirstFreeIn(d, best)
    requires scan == -1 <==> NoneFree(d, 0, d.flashPages, avoid, best)
    requires scan != -1 ==>
      && 0 <= scan < d.flashPages && d.pageStatus[scan] == Free
      && Eligible(d, scan, avoid, best) && NoneFree(d, 0, scan, avoid, best)
    ensures var r := if first >= 0 then first else scan;
      && (r == -1 || (0 <= r < d.flashPages && d.pageStatus[r] == Free))
      && (r == -1 <==> NoFreeOutside(d, avoid) && BlockFull(d, best))
      && (r != -1 && InBlock(d, r, avoid) ==> avoid == 0 && best == 0)
      && (BlockFull(d, best) && r != -1 ==>
            !InBlock(d, r, avoid) &&
            forall p :: 0 <= p < r && !InBlock(d, p, avoid) ==> d.pageStatus[p] != Free)
  {
    if first >= 0 {
      if InBlock(d, first, avoid) {
        BlocksDisjoint(d, first, best, avoid);
      }
    } else {
      if scan == -1 {
        assert NoFreeOutside(d, avoid);
      } else {
        forall p | 0 <= p < scan && !InBlock(d, p, avoid)
          ensures d.pageStatus[p] != Free
        {
          if !InBlock(d, p, best) {
            assert Eligible(d, p, avoid, best);
          }
        }
      }
    }
  }
}

=== FILE: cleaner.dfy ===
/** Garbage collection as disk.c writes it: `select_block_to_clean` picks the
    block with the most Invalid pages, and `clean_block` moves each current
    Valid page of the victim to a Free page found by `find_free_page`
    (avoiding the victim), then erases the victim. */
module Cleaner {

  import opened Tables
  import opened Allocator
  import Counting

  // ------------------------------------------------- select_block_to_clean

  /** The loop of `select_block_to_clean` from block `c` on, with the running
      best block and maximum Invalid count (both -1 before the first block). */
  function MostInvalid(d: Disk, c: nat, best: int, maxInv: int): (r: nat)
    requires Wf(d) && c <= d.flashBlocks
    requires best == -1 ==> c == 0 && maxInv == -1
    requires best != -1 ==>
      && 0 <= best < c && maxInv == CountIn(d, best, Invalid)
      && (forall x :: 0 <= x < c ==> CountIn(d, x, Invalid) <= maxInv)
      && (forall x :: 0 <= x < best ==> CountIn(d, x, Invalid) < maxInv)
    ensures r < d.flashBlocks
    ensures forall x :: 0 <= x < d.flashBlocks ==> CountIn(d, x, Invalid) <= CountIn(d, r, Invalid)
    ensures forall x :: 0 <= x < r ==> CountIn(d, x, Invalid) < CountIn(d, r, Invalid)
    decreases d.flashBlocks - c
  {
    if c == d.flashBlocks then best
    else
      var n := CountIn(d, c, Invalid);
      if n > maxInv then MostInvalid(d, c + 1, c, n)
      else MostInvalid(d, c + 1, best, maxInv)
  }

  /** `select_block_to_clean`: -1 exactly when no block has an Invalid page;
      otherwise the first block with the largest number of Invalid pages. */
  function SelectBlockToClean(d: Disk): (r: int)
    requires Wf(d)
    ensures r == -1 <==> forall c :: 0 <= c < d.flashBlocks ==> CountIn(d, c, Invalid) == 0
    ensures r != -1 ==>
      && 0 <= r < d.flashBlocks && CountIn(d, r, Invalid) > 0
      && (forall c :: 0 <= c < d.flashBlocks ==> CountIn(d, c, Invalid) <= CountIn(d, r, Invalid))
      && (forall c :: 0 <= c < r ==> CountIn(d, c, Invalid) < CountIn(d, r, Invalid))
  {
    var best := MostInvalid(d, 0, -1, -1);
    if CountIn(d, best, Invalid) > 0 then best else -1
  }

  // ------------------------------------------------------------ clean_block

  /** How migration may change page `p`, relative to the state `d` before
      cleaning victim block `v`: the page is untouched, or it was Free and is
      now Valid, owned by a logical block that has moved; a formerly Free page
      outside the victim that is now in use is owned by the block it points at. */
  ghost predicate PageMigrated(d: Disk, m: Disk, v: int, p: int)
    requires Wf(d) && Wf(m) && SameShape(d, m) && 0 <= p < d.flashPages
  {
    && ((m.pageStatus[p] == d.pageStatus[p] && m.pageToBlock[p] == d.pageToBlock[p] && m.flash[p] == d.flash[p])
        || (d.pageStatus[p] == Free && m.pageStatus[p] == Valid))
    && (d.pageStatus[p] == Free && m.pageStatus[p] != Free ==>
          0 <= m.pageToBlock[p] && m.blockToPage[m.pageToBlock[p]] != d.blockToPage[m.pageToBlock[p]])
    && (d.pageStatus[p] == Free && m.pageStatus[p] != Free && !InBlock(d, p, v) ==>
          0 <= m.pageToBlock[p] && m.blockToPage[m.pageToBlock[p]] == p)
  }

  /** Logical block `b`, mapped into victim `v` in `d`, has been moved in `m`:
      it was on a page that pointed back at it and is still in use, and it
      now owns a formerly Free page that holds its old data and points back
      at it. That page lies outside the victim unless the victim is block 0. */
  ghost predicate Moved(d: Disk, m: Disk, v: int, b: int)
    requires Wf(d) && Wf(m) && SameShape(d, m) && 0 <= b < d.diskBlocks
  {
    && 0 <= d.blockToPage[b] && InBlock(d, d.blockToPage[b], v)
    && d.pageToBlock[d.blockToPage[b]] == b && m.pageStatus[d.blockToPage[b]] != Free
    && 0 <= m.blockToPage[b] && d.pageStatus[m.blockToPage[b]] == Free
    && m.pageStatus[m.blockToPage[b]] == Valid && m.pageToBlock[m.blockToPage[b]] == b
    && m.flash[m.blockToPage[b]] == d.flash[d.blockToPage[b]]
    && (InBlock(d, m.blockToPage[b], v) ==> v == 0)
  }

  /** A logical block whose forward entry changed has moved. */
  ghost predicate BlockMigrated(d: Disk, m: Disk, v: int, b: int)
    requires Wf(d) && Wf(m) && SameShape(d, m) && 0 <= b < d.diskBlocks
  {
    m.blockToPage[b] != d.blockToPage[b] ==> Moved(d, m, v, b)
  }

  /** How migration may change the tables: page by page and block by block
      as above, with the erase counters and operation counters untouched. */
  ghost predicate Migrated(d: Disk, m: Disk, v: int)
    requires Wf(d) && Wf(m) && SameShape(d, m)
  {
    && m.eraseCount == d.eraseCount && m.nreads == d.nreads && m.nwrites == d.nwrites
    && (forall p :: 0 <= p < d.flashPages ==> PageMigrated(d, m, v, p))
    && (forall b :: 0 <= b < d.diskBlocks ==> BlockMigrated(d, m, v, b))
  }

  /** One iteration of the migration loop of `clean_block`, for page `x` of
      victim `v`: a Valid page that is still the current page of its logical
      block is copied to the page `find_free_page(d, v)` returns, which then
      becomes the block's page; when no page is found nothing happens. */
  function MigratePage(d: Disk, v: nat, x: int): (r: Disk)
    requires Wf(d) && v < d.flashBlocks && 0 <= x < d.flashPages && InBlock(d, x, v)
    ensures Wf(r) && SameShape(d, r) && Migrated(d, r, v)
  {
    if d.pageStatus[x] != Valid then d
    else
      var b := d.pageToBlock[x];
      if b < 0 || d.blockToPage[b] != x then d
      else
        var q := FindFreePage(d, v);
        if q < 0 then d
        else
          MoveMigrated(d, v, x, b, q);
          Install(d, b, q, d.flash[x])
  }

  /** Copying the current page `x` of `b` to the Free page `q` is a migration step. */
  lemma MoveMigrated(d: Disk, v: nat, x: int, b: int, q: int)
    requires Wf(d) && v < d.flashBlocks && 0 <= x < d.flashPages && InBlock(d, x, v)
    requires d.pageStatus[x] == Valid && 0 <= b < d.diskBlocks && d.pageToBlock[x] == b && d.blockToPage[b] == x
    requires 0 <= q < d.flashPages && d.pageStatus[q] == Free && (InBlock(d, q, v) ==> v == 0)
    ensures Migrated(d, Install(d, b, q, d.flash[x]), v)
  {
    var r := Install(d, b, q, d.flash[x]);
    assert Moved(d, r, v, b);
    forall p | 0 <= p < d.flashPages
      ensures PageMigrated(d, r, v, p)
    {
    }
    forall e | 0 <= e < d.diskBlocks
      ensures BlockMigrated(d, r, v, e)
    {
    }
  }

  /** Nothing happening is a migration step. */
  lemma SelfMigrated(d: Disk, v: int)
    requires Wf(d)
    ensures Migrated(d, d, v)
  {
    forall p | 0 <= p < d.flashPages
      ensures PageMigrated(d, d, v, p)
    {
    }
  }

  /** The migration loop of `clean_block` over the victim's pages from offset `k` on. */
  function Migrate(d: Disk, v: nat, k: nat): (r: Disk)
    requires Wf(d) && v < d.flashBlocks && k <= d.pagesPerBlock
    ensures Wf(r) && SameShape(d, r) && Migrated(d, r, v)
    decreases d.pagesPerBlock - k
  {
    if k == d.pagesPerBlock then
      SelfMigrated(d, v);
      d
    else
      BlockBounds(d, v);
      var m := MigratePage(d, v, BlockStart(d, v) + k);
      var r := Migrate(m, v, k + 1);
      MigratedTrans(d, m, r, v);
      r
  }

  /** The migration loop at offset `k` is one step followed by the loop at `k + 1`. */
  lemma MigrateUnfold(d: Disk, v: nat, k: nat)
    requires Wf(d) && v < d.flashBlocks && k < d.pagesPerBlock
    ensures 0 <= BlockStart(d, v) + k < d.flashPages && InBlock(d, BlockStart(d, v) + k, v)
    ensures Migrate(d, v, k) == Migrate(MigratePage(d, v, BlockStart(d, v) + k), v, k + 1)
  {
    BlockBounds(d, v);
  }

  /** Two migration stretches make one. */
  lemma MigratedTrans(d: Disk, m: Disk, r: Disk, v: int)
    requires Wf(d) && Wf(m) && Wf(r) && SameShape(d, m) && SameShape(m, r)
    requires Migrated(d, m, v) && Migrated(m, r, v)
    ensures Migrated(d, r, v)
  {
    forall b | 0 <= b < d.diskBlocks
      ensures BlockMigrated(d, r, v, b)
    {
      BlockTrans(d, m, r, v, b);
    }
    forall p | 0 <= p < d.flashPages
      ensures PageMigrated(d, r, v, p)
    {
      PageTrans(d, m, r, v, p);
    }
  }

  lemma BlockTrans(d: Disk, m: Disk, r: Disk, v: int, b: int)
    requires Wf(d) && Wf(m) && Wf(r) && SameShape(d, m) && SameShape(m, r) && 0 <= b < d.diskBlocks
    requires Migrated(d, m, v) && Migrated(m, r, v)
    ensures BlockMigrated(d, r, v, b)
  {
    assert BlockMigrated(d, m, v, b) && BlockMigrated(m, r, v, b);
    if r.blockToPage[b] != d.blockToPage[b] {
      if m.blockToPage[b] == d.blockToPage[b] {
        // Moved in the second stretch only: its old page was not touched before.
        var x := d.blockToPage[b];
        assert PageMigrated(d, m, v, x);
        var y := r.blockToPage[b];
        assert PageMigrated(d, m, v, y);
      } else if r.blockToPage[b] == m.blockToPage[b] {
        var y := m.blockToPage[b];
        assert PageMigrated(m, r, v, y);
        var x := d.blockToPage[b];
        assert PageMigrated(m, r, v, x);
      } else {
        // Moved twice (victim 0 only): from its first new page on to a second one.
        assert PageMigrated(m, r, v, d.blockToPage[b]);
        assert PageMigrated(d, m, v, r.blockToPage[b]);
      }
    }
  }

  lemma PageTrans(d: Disk, m: Disk, r: Disk, v: int, p: int)
    requires Wf(d) && Wf(m) && Wf(r) && SameShape(d, m) && SameShape(m, r) && 0 <= p < d.flashPages
    requires Migrated(d, m, v) && Migrated(m, r, v)
    ensures PageMigrated(d, r, v, p)
  {
    assert PageMigrated(d, m, v, p) && PageMigrated(m, r, v, p);
    if d.pageStatus[p] == Free && r.pageStatus[p] != Free {
      if m.pageStatus[p] != Free {
        var b := m.pageToBlock[p];
        BlockTrans(d, m, r, v, b);
        assert BlockMigrated(d, m, v, b) && BlockMigrated(m, r, v, b);
      } else {
        var b := r.pageToBlock[p];
        BlockTrans(d, m, r, v, b);
        assert BlockMigrated(d, m, v, b) && BlockMigrated(m, r, v, b);
      }
    }
  }

  /** `clean_block(d, v)`: migrate, then erase. The victim's erase counter
      goes up by exactly one and no other counter changes; every page of the
      victim ends Free, unowned and zero. Outside the victim, pages that were
      in use are untouched, and a page that was Free is either still Free or
      Valid and the current page of its owner. A logical block whose page moved was mapped into
      the victim and either now owns a Valid page outside the victim with its
      old data, or (victim 0 only) was moved inside the victim and is lost. */
  function CleanBlock(d: Disk, v: nat): (r: Disk)
    requires Wf(d) && v < d.flashBlocks
    ensures Wf(r) && SameShape(d, r) && r.nreads == d.nreads && r.nwrites == d.nwrites
    ensures r.eraseCount[v] == d.eraseCount[v] + 1
    ensures forall c :: 0 <= c < d.flashBlocks && c != v ==> r.eraseCount[c] == d.eraseCount[c]
    ensures forall p :: 0 <= p < d.flashPages && InBlock(d, p, v) ==>
              r.pageStatus[p] == Free && r.pageToBlock[p] == -1 && r.flash[p] == Zero
    ensures forall p :: 0 <= p < d.flashPages && !InBlock(d, p, v) && d.pageStatus[p] != Free ==>
              r.pageStatus[p] == d.pageStatus[p] && r.pageToBlock[p] == d.pageToBlock[p]
              && r.flash[p] == d.flash[p]
    ensures forall p :: 0 <= p < d.flashPages && !InBlock(d, p, v) && d.pageStatus[p] == Free ==>
              (r.pageStatus[p] == Free && r.pageToBlock[p] == d.pageToBlock[p] && r.flash[p] == d.flash[p])
              || (&& r.pageStatus[p] == Valid && 0 <= r.pageToBlock[p] && r.blockToPage[r.pageToBlock[p]] == p
                  && d.blockToPage[r.pageToBlock[p]] != p)
    ensures forall b :: 0 <= b < d.diskBlocks && r.blockToPage[b] != d.blockToPage[b] ==>
              && 0 <= d.blockToPage[b] && InBlock(d, d.blockToPage[b], v) && d.pageToBlock[d.blockToPage[b]] == b
              && 0 <= r.blockToPage[b] && d.pageStatus[r.blockToPage[b]] == Free
              && (InBlock(d, r.blockToPage[b], v) ==> v == 0)
              && (!InBlock(d, r.blockToPage[b], v) ==>
                    r.pageStatus[r.blockToPage[b]] == Valid && r.pageToBlock[r.blockToPage[b]] == b
                    && r.flash[r.blockToPage[b]] == d.flash[d.blockToPage[b]])
  {
    var m := Migrate(d, v, 0);
    EraseAfterMigrate(d, m, v);
    EraseBlock(m, v)
  }

  /** What erasing the victim after migration leaves, in terms of the state before migration. */
  lemma EraseAfterMigrate(d: Disk, m: Disk, v: nat)
    requires Wf(d) && Wf(m) && SameShape(d, m) && v < d.flashBlocks && Migrated(d, m, v)
    ensures var r := EraseBlock(m, v);
      && (forall p :: 0 <= p < d.flashPages && !InBlock(d, p, v) && d.pageStatus[p] != Free ==>
            r.pageStatus[p] == d.pageStatus[p] && r.pageToBlock[p] == d.pageToBlock[p]
            && r.flash[p] == d.flash[p])
      && (forall p :: 0 <= p < d.flashPages && !InBlock(d, p, v) && d.pageStatus[p] == Free ==>
            (r.pageStatus[p] == Free && r.pageToBlock[p] == d.pageToBlock[p] && r.flash[p] == d.flash[p])
            || (&& r.pageStatus[p] == Valid && 0 <= r.pageToBlock[p] && r.blockToPage[r.pageToBlock[p]] == p
                && d.blockToPage[r.pageToBlock[p]] != p))
      && (forall b :: 0 <= b < d.diskBlocks && r.blockToPage[b] != d.blockToPage[b] ==>
            && 0 <= d.blockToPage[b] && InBlock(d, d.blockToPage[b], v) && d.pageToBlock[d.blockToPage[b]] == b
            && 0 <= r.blockToPage[b] && d.pageStatus[r.blockToPage[b]] == Free
            && (InBlock(d, r.blockToPage[b], v) ==> v == 0)
            && (!InBlock(d, r.blockToPage[b], v) ==>
                  r.pageStatus[r.blockToPage[b]] == Valid && r.pageToBlock[r.blockToPage[b]] == b
                  && r.flash[r.blockToPage[b]] == d.flash[d.blockToPage[b]]))
  {
    var r := EraseBlock(m, v);
    forall p | 0 <= p < d.flashPages && !InBlock(d, p, v) && d.pageStatus[p] != Free
      ensures r.pageStatus[p] == d.pageStatus[p] && r.pageToBlock[p] == d.pageToBlock[p]
      ensures r.flash[p] == d.flash[p]
    {
      assert PageMigrated(d, m, v, p);
    }
    forall p | 0 <= p < d.flashPages && !InBlock(d, p, v) && d.pageStatus[p] == Free
      ensures (r.pageStatus[p] == Free && r.pageToBlock[p] == d.pageToBlock[p] && r.flash[p] == d.flash[p])
              || (&& r.pageStatus[p] == Valid && 0 <= r.pageToBlock[p] && r.blockToPage[r.pageToBlock[p]] == p
                  && d.blockToPage[r.pageToBlock[p]] != p)
    {
      assert PageMigrated(d, m, v, p);
    }
    forall b | 0 <= b < d.diskBlocks && r.blockToPage[b] != d.blockToPage[b]
      ensures && 0 <= d.blockToPage[b] && InBlock(d, d.blockToPage[b], v) && d.pageToBlock[d.blockToPage[b]] == b
              && 0 <= r.blockToPage[b] && d.pageStatus[r.blockToPage[b]] == Free
              && (InBlock(d, r.blockToPage[b], v) ==> v == 0)
              && (!InBlock(d, r.blockToPage[b], v) ==>
                    r.pageStatus[r.blockToPage[b]] == Valid && r.pageToBlock[r.blockToPage[b]] == b
                    && r.flash[r.blockToPage[b]] == d.flash[d.blockToPage[b]])
    {
      assert BlockMigrated(d, m, v, b);
    }
  }

  // ------------------------------------------------------- what cleaning keeps

  /** Free pages outside block `v`. */
  function FreeOutside(d: Disk, v: int): int
    requires Wf(d) && 0 <= v < d.flashBlocks
  {
    FreePages(d) - CountIn(d, v, Free)
  }

  /** Valid pages of block `v` at offsets `k..`. */
  function ValidFrom(d: Disk, v: int, k: nat): nat
    requires Wf(d) && 0 <= v < d.flashBlocks && k <= d.pagesPerBlock
  {
    BlockBounds(d, v);
    Counting.Count(d.pageStatus[BlockStart(d, v) + k..BlockStart(d, v) + d.pagesPerBlock], Valid)
  }

  lemma ValidFromStep(d: Disk, v: int, k: nat)
    requires Wf(d) && 0 <= v < d.flashBlocks && k < d.pagesPerBlock
    ensures BlockStart(d, v) + k < d.flashPages
    ensures ValidFrom(d, v, k) == ValidFrom(d, v, k + 1) + (if d.pageStatus[BlockStart(d, v) + k] == Valid then 1 else 0)
  {
    BlockBounds(d, v);
    var lo := BlockStart(d, v) + k;
    var hi := BlockStart(d, v) + d.pagesPerBlock;
    assert d.pageStatus[lo..hi][1..] == d.pageStatus[lo + 1..hi];
  }

  /** Positive Free space outside `v` means `find_free_page` has a page outside `v` to offer. */
  lemma FreeOutsideWitness(d: Disk, v: int)
    requires Wf(d) && 0 <= v < d.flashBlocks && NoFreeOutside(d, v)
    ensures FreeOutside(d, v) == 0
  {
    BlockBounds(d, v);
    var lo := BlockStart(d, v);
    var hi := lo + d.pagesPerBlock;
    Counting.CountSplit(d.pageStatus, lo, hi, Free);
    forall i | 0 <= i < lo
      ensures d.pageStatus[..lo][i] != Free
    {
      assert !InBlock(d, i, v);
    }
    forall i | 0 <= i < |d.pageStatus| - hi
      ensures d.pageStatus[hi..][i] != Free
    {
      assert !InBlock(d, hi + i, v);
    }
    Counting.CountZero(d.pageStatus[..lo], Free);
    Counting.CountZero(d.pageStatus[hi..], Free);
  }

  /** Installing on a Free page outside `v` uses up one Free page outside `v`
      and leaves the status counts of `v` alone. */
  lemma InstallOutside(d: Disk, b: int, q: int, x: Data, v: int)
    requires Wf(d) && 0 <= b < d.diskBlocks && 0 <= q < d.flashPages && 0 <= v < d.flashBlocks
    requires d.pageStatus[q] == Free && !InBlock(d, q, v)
    ensures FreeOutside(Install(d, b, q, x), v) == FreeOutside(d, v) - 1
    ensures forall k :: 0 <= k <= d.pagesPerBlock ==> ValidFrom(Install(d, b, q, x), v, k) == ValidFrom(d, v, k)
  {
    BlockBounds(d, v);
    var r := Install(d, b, q, x);
    var lo := BlockStart(d, v);
    var hi := lo + d.pagesPerBlock;
    Counting.CountUpdate(d.pageStatus, q, Valid, Free);
    assert r.pageStatus[lo..hi] == d.pageStatus[lo..hi];
    forall k | 0 <= k <= d.pagesPerBlock
      ensures ValidFrom(r, v, k) == ValidFrom(d, v, k)
    {
      assert r.pageStatus[lo + k..hi] == d.pageStatus[lo + k..hi];
    }
  }

  /** Logical block `b`, if mapped into victim `v`, sits at offset `k` or
      later on a Valid page that points back at it. */
  ghost predicate BlockAhead(d: Disk, v: nat, k: nat, b: int)
    requires Wf(d) && 0 <= b < d.diskBlocks
  {
    d.blockToPage[b] >= 0 && InBlock(d, d.blockToPage[b], v) ==>
      && d.blockToPage[b] >= BlockStart(d, v) + k
      && d.pageStatus[d.blockToPage[b]] == Valid && d.pageToBlock[d.blockToPage[b]] == b
  }

  /** Page `x`, if a Valid page of victim `v` at offset `k` or later, is the
      current page of the logical block it points at. */
  ghost predicate PageAhead(d: Disk, v: nat, k: nat, x: int)
    requires Wf(d) && 0 <= x < d.flashPages
  {
    BlockStart(d, v) + k <= x < BlockStart(d, v) + d.pagesPerBlock && d.pageStatus[x] == Valid ==>
      d.pageToBlock[x] >= 0 && d.blockToPage[d.pageToBlock[x]] == x
  }

  /** The maps around victim `v` at offset `k` of the migration loop. */
  ghost predicate EvacMaps(d: Disk, v: nat, k: nat)
    requires Wf(d)
  {
    && (forall b :: 0 <= b < d.diskBlocks ==> BlockAhead(d, v, k, b))
    && (forall x :: 0 <= x < d.flashPages ==> PageAhead(d, v, k, x))
  }

  /** The migration loop of a victim other than block 0 is on track at offset
      `k`: the maps are as above and the Free space outside the victim
      suffices for the Valid pages left. */
  ghost predicate EvacReady(d: Disk, v: nat, k: nat)
    requires Wf(d) && v < d.flashBlocks && k <= d.pagesPerBlock
  {
    0 < v && EvacMaps(d, v, k) && FreeOutside(d, v) >= ValidFrom(d, v, k)
  }

  /** One iteration keeps the migration loop on track. */
  lemma EvacStep(d: Disk, v: nat, k: nat)
    requires Wf(d) && v < d.flashBlocks && k < d.pagesPerBlock && EvacReady(d, v, k)
    ensures BlockStart(d, v) + k < d.flashPages && InBlock(d, BlockStart(d, v) + k, v)
    ensures EvacReady(MigratePage(d, v, BlockStart(d, v) + k), v, k + 1)
  {
    BlockBounds(d, v);
    var x := BlockStart(d, v) + k;
    if d.pageStatus[x] == Valid {
      EvacMove(d, v, k);
    } else {
      assert MigratePage(d, v, x) == d;
      ValidFromStep(d, v, k);
      EvacSkip(d, v, k, k + 1);
    }
  }

  /** Passing over a page that is not Valid advances the maps by one offset. */
  lemma EvacSkip(d: Disk, v: nat, k: nat, j: nat)
    requires Wf(d) && v < d.flashBlocks && k < d.pagesPerBlock && j == k + 1 && EvacMaps(d, v, k)
    requires BlockStart(d, v) + k < d.flashPages && d.pageStatus[BlockStart(d, v) + k] != Valid
    ensures EvacMaps(d, v, j)
  {
    forall b | 0 <= b < d.diskBlocks
      ensures BlockAhead(d, v, j, b)
    {
      assert BlockAhead(d, v, k, b);
    }
    forall x | 0 <= x < d.flashPages
      ensures PageAhead(d, v, j, x)
    {
      assert PageAhead(d, v, k, x);
    }
  }

  /** A migration step on a current page copies it to the page the allocator offers. */
  lemma CurrentPageMoves(d: Disk, v: nat, x: int, q: int)
    requires Wf(d) && v < d.flashBlocks && 0 <= x < d.flashPages && InBlock(d, x, v)
    requires d.pageStatus[x] == Valid && 0 <= d.pageToBlock[x] && d.blockToPage[d.pageToBlock[x]] == x
    requires FindFreePage(d, v) == q && q >= 0
    ensures MigratePage(d, v, x) == Install(d, d.pageToBlock[x], q, d.flash[x])
  {
  }

  /** The migration step for a current Valid page of a victim other than
      block 0, when some page outside the victim is Free, copies it to such a page. */
  lemma MigrateTarget(d: Disk, v: nat, x: int) returns (q: int)
    requires Wf(d) && 0 < v < d.flashBlocks && 0 <= x < d.flashPages && InBlock(d, x, v)
    requires d.pageStatus[x] == Valid && 0 <= d.pageToBlock[x] && d.blockToPage[d.pageToBlock[x]] == x
    requires !NoFreeOutside(d, v)
    ensures 0 <= q < d.flashPages && d.pageStatus[q] == Free && !InBlock(d, q, v)
    ensures MigratePage(d, v, x) == Install(d, d.pageToBlock[x], q, d.flash[x])
  {
    q := FindFreePage(d, v);
    CurrentPageMoves(d, v, x, q);
  }

  /** The iteration that moves a current Valid page out of the victim. */
  lemma EvacMove(d: Disk, v: nat, k: nat)
    requires Wf(d) && v < d.flashBlocks && k < d.pagesPerBlock && EvacReady(d, v, k)
    requires BlockStart(d, v) + k < d.flashPages && d.pageStatus[BlockStart(d, v) + k] == Valid
    ensures InBlock(d, BlockStart(d, v) + k, v)
    ensures EvacReady(MigratePage(d, v, BlockStart(d, v) + k), v, k + 1)
  {
    BlockBounds(d, v);
    var x := BlockStart(d, v) + k;
    assert PageAhead(d, v, k, x);
    var b := d.pageToBlock[x];
    ValidFromStep(d, v, k);
    if NoFreeOutside(d, v) {
      FreeOutsideWitness(d, v);
    }
    var q := MigrateTarget(d, v, x);
    var m := Install(d, b, q, d.flash[x]);
    InstallOutside(d, b, q, d.flash[x], v);
    ValidFromStep(m, v, k);
    EvacMapsMove(d, v, k, q);
  }

  /** Moving the current Valid page at offset `k` to a Free page outside the
      victim advances the maps to offset `k + 1`. */
  lemma EvacMapsMove(d: Disk, v: nat, k: nat, q: int)
    requires Wf(d) && v < d.flashBlocks && k < d.pagesPerBlock && EvacMaps(d, v, k)
    requires BlockStart(d, v) + k < d.flashPages && d.pageStatus[BlockStart(d, v) + k] == Valid
    requires 0 <= q < d.flashPages && d.pageStatus[q] == Free && !InBlock(d, q, v)
    ensures 0 <= d.pageToBlock[BlockStart(d, v) + k]
    ensures EvacMaps(Install(d, d.pageToBlock[BlockStart(d, v) + k], q, d.flash[BlockStart(d, v) + k]), v, k + 1)
  {
    var x := BlockStart(d, v) + k;
    BlockBounds(d, v);
    assert PageAhead(d, v, k, x);
    var b := d.pageToBlock[x];
    var m := Install(d, b, q, d.flash[x]);
    EvacBlocksMove(d, v, k, k + 1, x, b, q, m);
    EvacPagesMove(d, v, k, k + 1, x, b, q, m);
  }

  lemma EvacBlocksMove(d: Disk, v: nat, k: nat, j: nat, x: int, b: int, q: int, m: Disk)
    requires Wf(d) && v < d.flashBlocks && k < d.pagesPerBlock && EvacMaps(d, v, k)
    requires x == BlockStart(d, v) + k && x < d.flashPages && d.pageStatus[x] == Valid
    requires 0 <= b < d.diskBlocks && d.pageToBlock[x] == b && d.blockToPage[b] == x
    requires 0 <= q < d.flashPages && !InBlock(d, q, v)
    requires m == Install(d, b, q, d.flash[x]) && j == k + 1
    ensures forall e :: 0 <= e < d.diskBlocks ==> BlockAhead(m, v, j, e)
  {
    forall e | 0 <= e < d.diskBlocks
      ensures BlockAhead(m, v, j, e)
    {
      assert BlockAhead(d, v, k, e);
      if e != b && d.blockToPage[e] >= 0 {
        assert d.blockToPage[e] != x;
      }
    }
  }

  lemma EvacPagesMove(d: Disk, v: nat, k: nat, j: nat, x: int, b: int, q: int, m: Disk)
    requires Wf(d) && v < d.flashBlocks && k < d.pagesPerBlock && EvacMaps(d, v, k)
    requires x == BlockStart(d, v) + k && x < d.flashPages && d.pageStatus[x] == Valid
    requires 0 <= b < d.diskBlocks && d.pageToBlock[x] == b && d.blockToPage[b] == x
    requires 0 <= q < d.flashPages && !InBlock(d, q, v)
    requires m == Install(d, b, q, d.flash[x]) && j == k + 1
    ensures forall y :: 0 <= y < d.flashPages ==> PageAhead(m, v, j, y)
  {
    forall y | 0 <= y < d.flashPages
      ensures PageAhead(m, v, j, y)
    {
      if BlockStart(d, v) + k + 1 <= y < BlockStart(d, v) + d.pagesPerBlock && m.pageStatus[y] == Valid {
        assert y != q;
        assert PageAhead(d, v, k, y);
        assert d.pageToBlock[y] != b;
      }
    }
  }

  /** No logical block is mapped into block `v`. */
  ghost predicate OutOfVictim(d: Disk, v: nat)
    requires Wf(d)
  {
    forall b :: 0 <= b < d.diskBlocks && d.blockToPage[b] >= 0 ==> !InBlock(d, d.blockToPage[b], v)
  }

  /** When the victim is not block 0 and the loop is on track, migration
      moves every logical block mapped into the victim out of it. */
  lemma {:induction false} MigrateEvacuates(d: Disk, v: nat, k: nat)
    requires Wf(d) && v < d.flashBlocks && k <= d.pagesPerBlock && EvacReady(d, v, k)
    ensures OutOfVictim(Migrate(d, v, k), v)
    decreases d.pagesPerBlock - k, 1
  {
    if k < d.pagesPerBlock {
      EvacRest(d, v, k);
    } else {
      assert Migrate(d, v, k) == d;
      EvacDone(d, v);
    }
  }

  /** The inductive step of `MigrateEvacuates`: one iteration, then the rest. */
  lemma {:induction false} EvacRest(d: Disk, v: nat, k: nat)
    requires Wf(d) && v < d.flashBlocks && k < d.pagesPerBlock && EvacReady(d, v, k)
    ensures OutOfVictim(Migrate(d, v, k), v)
    decreases d.pagesPerBlock - k, 0
  {
    var m := EvacAdvance(d, v, k);
    MigrateEvacuates(m, v, k + 1);
  }

  /** One iteration of the migration loop, named: the state it leaves is
      still on track, and the rest of the loop runs from it. */
  lemma EvacAdvance(d: Disk, v: nat, k: nat) returns (m: Disk)
    requires Wf(d) && v < d.flashBlocks && k < d.pagesPerBlock && EvacReady(d, v, k)
    ensures Wf(m) && SameShape(d, m) && EvacReady(m, v, k + 1)
    ensures Migrate(d, v, k) == Migrate(m, v, k + 1)
  {
    MigrateUnfold(d, v, k);
    EvacStep(d, v, k);
    m := MigratePage(d, v, BlockStart(d, v) + k);
  }

  /** Once the loop has passed every offset, nothing is mapped into the victim. */
  lemma EvacDone(d: Disk, v: nat)
    requires Wf(d) && v < d.flashBlocks && EvacMaps(d, v, d.pagesPerBlock)
    ensures OutOfVictim(d, v)
  {
    forall b | 0 <= b < d.diskBlocks && d.blockToPage[b] >= 0
      ensures !InBlock(d, d.blockToPage[b], v)
    {
      assert BlockAhead(d, v, d.pagesPerBlock, b);
    }
  }

  /** With the victim not block 0 and enough Free space outside it for its
      Valid pages, `clean_block` loses nothing: the maps stay coherent, every
      logical block reads as before, and none is left in the victim. */
  lemma CleanBlockPreserves(d: Disk, v: nat)
    requires Inv(d) && 0 < v < d.flashBlocks
    requires FreePages(d) - CountIn(d, v, Free) >= CountIn(d, v, Valid)
    ensures Inv(CleanBlock(d, v))
    ensures forall b :: 0 <= b < d.diskBlocks ==> View(CleanBlock(d, v), b) == View(d, b)
    ensures forall b :: 0 <= b < d.diskBlocks && CleanBlock(d, v).blockToPage[b] >= 0 ==>
              !InBlock(d, CleanBlock(d, v).blockToPage[b], v)
  {
    BlockBounds(d, v);
    var m := Migrate(d, v, 0);
    var r := CleanBlock(d, v);
    assert r == EraseBlock(m, v);
    EvacStart(d, v);
    MigrateEvacuates(d, v, 0);
    forall b | 0 <= b < d.diskBlocks
      ensures r.blockToPage[b] >= 0 ==>
                r.pageStatus[r.blockToPage[b]] == Valid && r.pageToBlock[r.blockToPage[b]] == b
      ensures View(r, b) == View(d, b)
    {
      assert BlockMigrated(d, m, v, b);
      if d.blockToPage[b] >= 0 {
        assert PageMigrated(d, m, v, d.blockToPage[b]);
      }
    }
    forall p | 0 <= p < d.flashPages && r.pageStatus[p] == Valid
      ensures r.pageToBlock[p] >= 0 && r.blockToPage[r.pageToBlock[p]] == p
    {
      assert !InBlock(d, p, v);
      assert PageMigrated(d, m, v, p);
      if d.pageStatus[p] == Valid {
        assert BlockMigrated(d, m, v, d.pageToBlock[p]);
      }
    }
    forall p | 0 <= p < d.flashPages && r.pageStatus[p] != Valid
      ensures r.pageToBlock[p] == -1
    {
      assert PageMigrated(d, m, v, p);
    }
  }

  /** Before the first iteration, with a Free page outside the victim for
      each of its Valid pages, the migration loop is on track. */
  lemma EvacStart(d: Disk, v: nat)
    requires Inv(d) && 0 < v < d.flashBlocks
    requires FreePages(d) - CountIn(d, v, Free) >= CountIn(d, v, Valid)
    ensures EvacReady(d, v, 0)
  {
    BlockBounds(d, v);
    assert ValidFrom(d, v, 0) == CountIn(d, v, Valid);
    forall b | 0 <= b < d.diskBlocks
      ensures BlockAhead(d, v, 0, b)
    {
    }
    forall x | 0 <= x < d.flashPages
      ensures PageAhead(d, v, 0, x)
    {
    }
  }

  /** With no Free page outside the victim, `clean_block` drops every logical
      block mapped into it: the block stays mapped to a page of the victim,
      which the erase has made Free, and reads as zero; the maps no longer agree. */
  lemma CleanWithoutSpareDrops(d: Disk, v: nat, b: int)
    requires Wf(d) && v < d.flashBlocks && NoFreeOutside(d, v)
    requires 0 <= b < d.diskBlocks && d.blockToPage[b] >= 0 && InBlock(d, d.blockToPage[b], v)
    ensures var r := CleanBlock(d, v);
            && r.blockToPage[b] >= 0 && InBlock(d, r.blockToPage[b], v)
            && r.pageStatus[r.blockToPage[b]] == Free && View(r, b) == Zero
            && !Coherent(r)
  {
    var m := Migrate(d, v, 0);
    var r := CleanBlock(d, v);
    assert r == EraseBlock(m, v);
    assert BlockMigrated(d, m, v, b);
  }
}

=== FILE: counting.dfy ===
/** Occurrence counts over sequences and the pigeonhole bound used to reason
    about how many flash pages are Free, Valid or Invalid. */
module Counting {

  /** Number of positions of `s` holding `x`. */
  function Count<T(==)>(s: seq<T>, x: T): (n: nat)
    ensures n <= |s|
  {
    if |s| == 0 then 0 else (if s[0] == x then 1 else 0) + Count(s[1..], x)
  }

  lemma {:induction false} CountConcat<T>(a: seq<T>, b: seq<T>, x: T)
    ensures Count(a + b, x) == Count(a, x) + Count(b, x)
    decreases |a|
  {
    if |a| == 0 {
      assert a + b == b;
    } else {
      assert (a + b)[1..] == a[1..] + b;
      CountConcat(a[1..], b, x);
    }
  }

  /** Growing a prefix by one position adds that position to the count. */
  lemma CountPrefix<T>(s: seq<T>, n: int, x: T)
    requires 0 < n <= |s|
    ensures Count(s[..n], x) == Count(s[..n - 1], x) + (if s[n - 1] == x then 1 else 0)
  {
    assert s[..n] == s[..n - 1] + [s[n - 1]];
    CountConcat(s[..n - 1], [s[n - 1]], x);
  }

  /** Splitting a sequence into a prefix, a middle range and a suffix splits its count. */
  lemma CountSplit<T>(s: seq<T>, lo: int, hi: int, x: T)
    requires 0 <= lo <= hi <= |s|
    ensures Count(s, x) == Count(s[..lo], x) + Count(s[lo..hi], x) + Count(s[hi..], x)
  {
    var a, b, c := s[..lo], s[lo..hi], s[hi..];
    assert s[..hi] == a + b;
    assert s == s[..hi] + c;
    CountConcat(a + b, c, x);
    CountConcat(a, b, x);
  }

  /** Filling the range [lo, hi) with `x` and keeping the rest adds to the
      count of `x` the positions of the range that did not hold it. */
  lemma CountFill<T>(s: seq<T>, t: seq<T>, lo: int, hi: int, x: T)
    requires 0 <= lo <= hi <= |s| == |t|
    requires forall i :: 0 <= i < |s| && !(lo <= i < hi) ==> t[i] == s[i]
    requires forall i :: lo <= i < hi ==> t[i] == x
    ensures Count(t, x) == Count(s, x) + (hi - lo) - Count(s[lo..hi], x)
  {
    CountSplit(s, lo, hi, x);
    CountSplit(t, lo, hi, x);
    assert t[..lo] == s[..lo];
    assert t[hi..] == s[hi..];
    CountAll(t[lo..hi], x);
  }

  /** Overwriting one position changes the count by at most the two values involved. */
  lemma CountUpdate<T>(s: seq<T>, i: int, y: T, x: T)
    requires 0 <= i < |s|
    ensures Count(s[i := y], x) + (if s[i] == x then 1 else 0)
         == Count(s, x) + (if y == x then 1 else 0)
  {
    assert s == s[..i] + [s[i]] + s[i+1..];
    assert s[i := y] == s[..i] + [y] + s[i+1..];
    CountConcat(s[..i] + [s[i]], s[i+1..], x);
    CountConcat(s[..i], [s[i]], x);
    CountConcat(s[..i] + [y], s[i+1..], x);
    CountConcat(s[..i], [y], x);
  }

  /** A value that occurs nowhere is counted zero times, and conversely. */
  lemma {:induction false} CountZero<T>(s: seq<T>, x: T)
    ensures Count(s, x) == 0 <==> forall i :: 0 <= i < |s| ==> s[i] != x
    decreases |s|
  {
    if |s| > 0 {
      CountZero(s[1..], x);
      assert forall i :: 1 <= i < |s| ==> s[i] == s[1..][i - 1];
    }
  }

  /** A value that occurs everywhere is counted once per position. */
  lemma {:induction false} CountAll<T>(s: seq<T>, x: T)
    requires forall i :: 0 <= i < |s| ==> s[i] == x
    ensures Count(s, x) == |s|
    decreases |s|
  {
    if |s| > 0 {
      CountAll(s[1..], x);
    }
  }

  /** When the values come from a three-element set, their counts add up to the length. */
  lemma {:induction false} CountPartition<T>(s: seq<T>, a: T, b: T, c: T)
    requires a != b && b != c && a != c
    requires forall i :: 0 <= i < |s| ==> s[i] == a || s[i] == b || s[i] == c
    ensures Count(s, a) + Count(s, b) + Count(s, c) == |s|
    decreases |s|
  {
    if |s| > 0 {
      assert forall i :: 0 <= i < |s| - 1 ==> s[1..][i] == s[i + 1];
      CountPartition(s[1..], a, b, c);
    }
  }

  /** Pigeonhole: a sequence of pairwise distinct values drawn from [0, m) is at most m long. */
  lemma {:induction false} DistinctBound(f: seq<int>, m: nat)
    requires forall i :: 0 <= i < |f| ==> 0 <= f[i] < m
    requires forall i, j :: 0 <= i < j < |f| ==> f[i] != f[j]
    ensures |f| <= m
    decreases |f|
  {
    if |f| > 0 {
      var n := |f| - 1;
      var v := f[n];
      // Close the gap left by `v`: the remaining values then lie in [0, m - 1).
      var g := seq(n, i requires 0 <= i < n => if f[i] > v then f[i] - 1 else f[i]);
      forall i, j | 0 <= i < j < |g|
        ensures g[i] != g[j]
      {
        assert f[i] != v && f[j] != v && f[i] != f[j];
      }
      forall i | 0 <= i < |g|
        ensures 0 <= g[i] < m - 1
      {
        assert f[i] != v;
      }
      DistinctBound(g, m - 1);
    }
  }
}

=== FILE: repaired.dfy ===
/** The translation layer with the defects of disk.c corrected:
    - `find_free_page` never offers a page of the block it is asked to avoid;
    - `clean_block` keeps the victim's current pages in memory across the
      erase (clean_block already copies each page through a buffer) and
      writes them back to Free pages, so it never loses a logical block;
    - `disk_write` unmaps the old page, then after cleaning looks for a page
      anywhere, and reports exhaustion instead of using page -1.
    With these, the translation layer behaves as an array of logical blocks,
    and a write never runs out of pages while there are fewer logical blocks
    than flash pages. */
module Repaired {

  import opened Tables
  import Allocator
  import Cleaner
  import Translation
  import Counting

  // ------------------------------------------------------------- allocation

  /** The least-erased block other than `avoid` (the first one on a tie), or
      -1 when there is none, that is when the only block is avoided. */
  function BestBlock(d: Disk, avoid: int): (r: int)
    requires Wf(d)
    ensures r == -1 <==> d.flashBlocks == 1 && avoid == 0
    ensures r != -1 ==> 0 <= r < d.flashBlocks && r != avoid
    ensures r != -1 ==> forall c :: 0 <= c < d.flashBlocks && c != avoid ==> d.eraseCount[r] <= d.eraseCount[c]
    ensures r != -1 ==> forall c :: 0 <= c < r && c != avoid ==> d.eraseCount[r] < d.eraseCount[c]
  {
    if avoid != 0 then Allocator.BestBlock(d, avoid)
    else if d.flashBlocks == 1 then -1
    else Allocator.LeastErased(d.eraseCount, 0, 2, 1)
  }

  /** `find_free_page` as intended: the first Free page of the least-erased
      block other than `avoid`, otherwise the first Free page outside `avoid`;
      -1 exactly when every page outside `avoid` is in use. When `avoid` is
      not block 0 this is what disk.c computes. */
  function FindFreePage(d: Disk, avoid: int): (r: int)
    requires Wf(d)
    ensures r == -1 <==> NoFreeOutside(d, avoid)
    ensures r != -1 ==> 0 <= r < d.flashPages && d.pageStatus[r] == Free && !InBlock(d, r, avoid)
    ensures BestBlock(d, avoid) != -1 && !BlockFull(d, BestBlock(d, avoid)) ==>
              r == Allocator.FirstFreeIn(d, BestBlock(d, avoid))
    ensures avoid != 0 ==> r == Allocator.FindFreePage(d, avoid)
  {
    var best := BestBlock(d, avoid);
    var first := if best >= 0 then Allocator.FirstFreeIn(d, best) else -1;
    var scan := Allocator.ScanBlocks(d, avoid, best, 0);
    BlockStartEnds(d);
    FindStep(d, avoid, best, first, scan);
    if first >= 0 then first else scan
  }

  /** How the two loops combine once the seed respects `avoid`. */
  lemma FindStep(d: Disk, avoid: int, best: int, first: int, scan: int)
    requires Wf(d) && best == BestBlock(d, avoid)
    requires first == if best >= 0 then Allocator.FirstFreeIn(d, best) else -1
    requires scan == -1 <==> Allocator.NoneFree(d, 0, d.flashPages, avoid, best)
    requires scan != -1 ==>
      && 0 <= scan < d.flashPages && d.pageStatus[scan] == Free
      && Allocator.Eligible(d, scan, avoid, best)
    ensures var r := if first >= 0 then first else scan;
      && (r == -1 <==> NoFreeOutside(d, avoid))
      && (r != -1 ==> 0 <= r < d.flashPages && d.pageStatus[r] == Free && !InBlock(d, r, avoid))
  {
    if best == -1 {
      forall p | 0 <= p < d.flashPages
        ensures InBlock(d, p, 0)
      {
      }
    } else if first >= 0 {
      if InBlock(d, first, avoid) {
        BlocksDisjoint(d, first, best, avoid);
      }
    } else if scan == -1 {
      forall p | 0 <= p < d.flashPages && !InBlock(d, p, avoid)
        ensures d.pageStatus[p] != Free
      {
        if !InBlock(d, p, best) {
          assert Allocator.Eligible(d, p, avoid, best);
        }
      }
    }
  }

  // --------------------------------------------------------------- cleaning

  /** A current page of a victim held in memory across the erase. */
  datatype Live = Live(block: int, data: Data)

  /** Page `x` is the current page of the logical block it points at. */
  predicate Current(d: Disk, x: int)
    requires Wf(d) && 0 <= x < d.flashPages
  {
    d.pageStatus[x] == Valid && 0 <= d.pageToBlock[x] && d.blockToPage[d.pageToBlock[x]] == x
  }

  /** Some held page belongs to logical block `b`. */
  ghost predicate Lists(s: seq<Live>, b: int) {
    exists i :: 0 <= i < |s| && s[i].block == b
  }

  /** Every current page of victim `v` at offsets `k..` is held in `s`. */
  ghost predicate Captured(d: Disk, v: nat, k: nat, s: seq<Live>)
    requires Wf(d)
  {
    forall x :: (BlockStart(d, v) + k <= x < BlockStart(d, v) + d.pagesPerBlock
                 && 0 <= x < d.flashPages && Current(d, x)) ==> Lists(s, d.pageToBlock[x])
  }

  /** The current pages of victim `v` at offsets `k..`, in page order, with
      the logical block each belongs to and the data it holds. */
  function Snapshot(d: Disk, v: nat, k: nat): (s: seq<Live>)
    requires Wf(d) && v < d.flashBlocks && k <= d.pagesPerBlock
    ensures forall i :: 0 <= i < |s| ==>
              && 0 <= s[i].block < d.diskBlocks && 0 <= d.blockToPage[s[i].block]
              && InBlock(d, d.blockToPage[s[i].block], v)
              && d.blockToPage[s[i].block] >= BlockStart(d, v) + k
              && s[i].data == View(d, s[i].block)
    ensures forall i, j :: 0 <= i < j < |s| ==> s[i].block != s[j].block
    ensures Captured(d, v, k, s)
    ensures |s| <= Cleaner.ValidFrom(d, v, k)
    ensures Inv(d) ==> |s| == Cleaner.ValidFrom(d, v, k)
    decreases d.pagesPerBlock - k
  {
    if k == d.pagesPerBlock then
      BlockBounds(d, v);
      []
    else
      BlockBounds(d, v);
      Cleaner.ValidFromStep(d, v, k);
      var x := BlockStart(d, v) + k;
      var rest := Snapshot(d, v, k + 1);
      if Current(d, x) then
        var s := [Live(d.pageToBlock[x], d.flash[x])] + rest;
        SnapshotCons(d, v, k, rest, s);
        s
      else
        SnapshotSkip(d, v, k, rest);
        rest
  }

  /** Holding page `start + k` in front of what is held from `k + 1` on. */
  lemma SnapshotCons(d: Disk, v: nat, k: nat, rest: seq<Live>, s: seq<Live>)
    requires Wf(d) && v < d.flashBlocks && k < d.pagesPerBlock
    requires BlockStart(d, v) + k < d.flashPages && Current(d, BlockStart(d, v) + k)
    requires s == [Live(d.pageToBlock[BlockStart(d, v) + k], d.flash[BlockStart(d, v) + k])] + rest
    requires forall i :: 0 <= i < |rest| ==> 0 <= rest[i].block < d.diskBlocks && 0 <= d.blockToPage[rest[i].block] && d.blockToPage[rest[i].block] >= BlockStart(d, v) + k + 1
    requires Captured(d, v, k + 1, rest)
    ensures forall i :: 1 <= i < |s| ==> s[i] == rest[i - 1]
    ensures forall i :: 1 <= i < |s| ==> s[i].block != s[0].block
    ensures Captured(d, v, k, s)
  {
    var x := BlockStart(d, v) + k;
    assert Lists(s, d.pageToBlock[x]) by {
      assert s[0].block == d.pageToBlock[x];
    }
    forall y | BlockStart(d, v) + k + 1 <= y < BlockStart(d, v) + d.pagesPerBlock && 0 <= y < d.flashPages && Current(d, y)
      ensures Lists(s, d.pageToBlock[y])
    {
      ListsBehind(s, rest, d.pageToBlock[y]);
    }
  }

  /** A block held in `rest` is held in anything `rest` follows. */
  lemma ListsBehind(s: seq<Live>, rest: seq<Live>, b: int)
    requires |s| == |rest| + 1 && forall i :: 1 <= i < |s| ==> s[i] == rest[i - 1]
    requires Lists(rest, b)
    ensures Lists(s, b)
  {
    var i :| 0 <= i < |rest| && rest[i].block == b;
    assert s[i + 1] == rest[i];
  }

  /** Skipping page `start + k` when it is not current. */
  lemma SnapshotSkip(d: Disk, v: nat, k: nat, rest: seq<Live>)
    requires Wf(d) && v < d.flashBlocks && k < d.pagesPerBlock
    requires BlockStart(d, v) + k < d.flashPages && !Current(d, BlockStart(d, v) + k)
    requires Captured(d, v, k + 1, rest)
    ensures Captured(d, v, k, rest)
  {
    var x := BlockStart(d, v) + k;
    forall y | BlockStart(d, v) + k <= y < BlockStart(d, v) + d.pagesPerBlock && 0 <= y < d.flashPages && Current(d, y)
      ensures Lists(rest, d.pageToBlock[y])
    {
      assert y != x;
    }
  }

  /** Unmapping every logical block mapped into `v` and erasing `v`. */
  function Evict(d: Disk, v: nat): (r: Disk)
    requires Wf(d) && v < d.flashBlocks
    ensures Wf(r) && SameShape(d, r) && r.nreads == d.nreads && r.nwrites == d.nwrites
    ensures r.eraseCount == d.eraseCount[v := d.eraseCount[v] + 1]
    ensures forall b :: 0 <= b < d.diskBlocks ==>
              if d.blockToPage[b] >= 0 && InBlock(d, d.blockToPage[b], v)
              then r.blockToPage[b] == -1
              else r.blockToPage[b] == d.blockToPage[b] && View(r, b) == View(d, b)
    ensures FreePages(r) == FreePages(d) + d.pagesPerBlock - CountIn(d, v, Free)
    ensures Inv(d) ==> Inv(r)
  {
    var e := EraseBlock(d, v);
    EraseFrees(d, v);
    var r := e.(blockToPage := seq(d.diskBlocks, b requires 0 <= b < d.diskBlocks =>
                  if d.blockToPage[b] >= 0 && InBlock(d, d.blockToPage[b], v) then -1 else d.blockToPage[b]));
    assert r.pageStatus == e.pageStatus;
    r
  }

  /** Writing held pages back, each to the page `FindFreePage(d, -1)` offers. */
  function Readmit(d: Disk, items: seq<Live>): (r: Disk)
    requires Wf(d)
    requires forall i :: 0 <= i < |items| ==> 0 <= items[i].block < d.diskBlocks
    ensures Wf(r) && SameShape(d, r) && r.nreads == d.nreads && r.nwrites == d.nwrites
    ensures r.eraseCount == d.eraseCount
    decreases |items|
  {
    if |items| == 0 then d
    else
      var p := FindFreePage(d, -1);
      var e := if p >= 0 then Install(d, items[0].block, p, items[0].data) else d;
      Readmit(e, items[1..])
  }

  /** Blocks the held pages belong to: distinct, and unmapped while held. */
  ghost predicate Held(d: Disk, items: seq<Live>)
    requires Wf(d)
  {
    && (forall i :: 0 <= i < |items| ==> 0 <= items[i].block < d.diskBlocks && d.blockToPage[items[i].block] == -1)
    && (forall i, j :: 0 <= i < j < |items| ==> items[i].block != items[j].block)
  }

  /** With enough Free pages, writing the held pages back keeps the maps
      coherent, gives each held block its data, leaves every other block
      alone and uses up one Free page per held page. */
  lemma {:induction false} ReadmitRestores(d: Disk, items: seq<Live>)
    requires Inv(d) && Held(d, items) && FreePages(d) >= |items|
    ensures Inv(Readmit(d, items))
    ensures forall i :: 0 <= i < |items| ==> View(Readmit(d, items), items[i].block) == items[i].data
    ensures forall b :: 0 <= b < d.diskBlocks && (forall i :: 0 <= i < |items| ==> items[i].block != b) ==>
              View(Readmit(d, items), b) == View(d, b)
    ensures forall b :: 0 <= b < d.diskBlocks && (forall i :: 0 <= i < |items| ==> items[i].block != b) ==>
              Readmit(d, items).blockToPage[b] == d.blockToPage[b]
    ensures FreePages(Readmit(d, items)) == FreePages(d) - |items|
    decreases |items|
  {
    if |items| > 0 {
      var e := ReadmitFirst(d, items);
      ReadmitRestores(e, items[1..]);
    }
  }

  /** Writing back the first held page: the state after it satisfies the
      same conditions for the rest, with one Free page fewer. */
  lemma ReadmitFirst(d: Disk, items: seq<Live>) returns (e: Disk)
    requires Inv(d) && Held(d, items) && FreePages(d) >= |items| > 0
    ensures Inv(e) && SameShape(d, e) && Held(e, items[1..]) && FreePages(e) >= |items[1..]|
    ensures FreePages(e) + 1 == FreePages(d)
    ensures View(e, items[0].block) == items[0].data && e.blockToPage[items[0].block] >= 0
    ensures forall b :: 0 <= b < d.diskBlocks && b != items[0].block ==>
              View(e, b) == View(d, b) && e.blockToPage[b] == d.blockToPage[b]
    ensures Readmit(d, items) == Readmit(e, items[1..])
  {
    var b := items[0].block;
    FreeWitness(d);
    var p := FindFreePage(d, -1);
    assert Retire(d, b) == d;
    CommitUpdates(d, b, p, items[0].data);
    e := Install(d, b, p, items[0].data);
    var rest := items[1..];
    assert forall i :: 0 <= i < |rest| ==> rest[i] == items[i + 1];
    assert Held(e, rest);
  }

  /** `clean_block` as intended: hold the victim's current pages, erase it,
      and write them back. The victim's erase counter goes up by one and no
      other counter changes. */
  function CleanBlock(d: Disk, v: nat): (r: Disk)
    requires Wf(d) && v < d.flashBlocks
    ensures Wf(r) && SameShape(d, r) && r.nreads == d.nreads && r.nwrites == d.nwrites
    ensures r.eraseCount == d.eraseCount[v := d.eraseCount[v] + 1]
  {
    var e := Evict(d, v);
    var items := Snapshot(d, v, 0);
    Readmit(e, items)
  }

  /** Cleaning as intended loses nothing: on a coherent state the maps stay
      coherent, every logical block reads as before, and every Invalid page of
      the victim becomes a Free page. */
  lemma CleanPreserves(d: Disk, v: nat)
    requires Inv(d) && v < d.flashBlocks
    ensures Inv(CleanBlock(d, v))
    ensures forall b :: 0 <= b < d.diskBlocks ==> View(CleanBlock(d, v), b) == View(d, b)
    ensures forall b :: 0 <= b < d.diskBlocks && d.blockToPage[b] == -1 ==> CleanBlock(d, v).blockToPage[b] == -1
    ensures FreePages(CleanBlock(d, v)) == FreePages(d) + CountIn(d, v, Invalid)
  {
    var items := Snapshot(d, v, 0);
    var e := Evict(d, v);
    CleanCount(d, v);
    CleanHeld(d, v);
    ReadmitRestores(e, items);
    forall b | 0 <= b < d.diskBlocks
      ensures View(CleanBlock(d, v), b) == View(d, b)
    {
      if d.blockToPage[b] >= 0 && InBlock(d, d.blockToPage[b], v) {
        assert Current(d, d.blockToPage[b]);
        var i :| 0 <= i < |items| && items[i].block == d.pageToBlock[d.blockToPage[b]];
      }
    }
  }

  /** The victim's current pages, once evicted, are held: their blocks are
      distinct and unmapped. */
  lemma CleanHeld(d: Disk, v: nat)
    requires Inv(d) && v < d.flashBlocks
    ensures Inv(Evict(d, v)) && Held(Evict(d, v), Snapshot(d, v, 0))
  {
  }

  /** Erasing the victim frees its Valid and Invalid pages; the Valid ones
      are the pages held for writing back. */
  lemma CleanCount(d: Disk, v: nat)
    requires Inv(d) && v < d.flashBlocks
    ensures FreePages(Evict(d, v)) == FreePages(d) + CountIn(d, v, Invalid) + |Snapshot(d, v, 0)|
  {
    BlockBounds(d, v);
    var slice := d.pageStatus[BlockStart(d, v)..BlockStart(d, v) + d.pagesPerBlock];
    Counting.CountPartition(slice, Free, Valid, Invalid);
    assert Cleaner.ValidFrom(d, v, 0) == CountIn(d, v, Valid);
  }

  // ------------------------------------------------------------ disk_write

  /** Dropping the mapping of logical block `b`: its page, if any, becomes
      Invalid with no owner and `b` reads zero. On a coherent state the maps
      stay coherent, every other block reads as before and the number of Free
      pages does not change. */
  function Unmap(d: Disk, b: int): (r: Disk)
    requires Wf(d) && 0 <= b < d.diskBlocks
    ensures Wf(r) && SameShape(d, r) && r.nreads == d.nreads && r.nwrites == d.nwrites
    ensures r.eraseCount == d.eraseCount && r.blockToPage[b] == -1
    ensures d.blockToPage[b] < 0 ==> r == d
    ensures d.blockToPage[b] >= 0 ==> r.pageStatus[d.blockToPage[b]] == Invalid
    ensures Inv(d) ==> Inv(r) && FreePages(r) == FreePages(d)
    ensures Inv(d) ==> forall e :: 0 <= e < d.diskBlocks && e != b ==> View(r, e) == View(d, e)
  {
    var m := Retire(d, b);
    var r := m.(blockToPage := m.blockToPage[b := -1]);
    if d.blockToPage[b] >= 0 then
      Counting.CountUpdate(d.pageStatus, d.blockToPage[b], Invalid, Free);
      r
    else
      r
  }

  /** Outcome of the corrected `disk_write`. */
  datatype Outcome = Rejected | Done(disk: Disk) | Exhausted(disk: Disk)

  /** `disk_write` as intended: drop the old mapping, take any Free page; if
      there is none, clean the block with the most Invalid pages and take any
      Free page again; report exhaustion when there is still none. */
  function DiskWrite(d: Disk, b: int, x: Data): (r: Outcome)
    requires Wf(d)
    ensures r.Rejected? <==> !(0 <= b < d.diskBlocks)
    ensures !r.Rejected? ==> Wf(r.disk) && SameShape(d, r.disk) && r.disk.nreads == d.nreads
    ensures r.Done? ==> View(r.disk, b) == x && r.disk.nwrites == d.nwrites + 1
    ensures r.Exhausted? ==> r.disk.nwrites == d.nwrites
  {
    if b < 0 || b >= d.diskBlocks then Rejected
    else
      var d1 := Unmap(d, b);
      var p := FindFreePage(d1, -1);
      if p >= 0 then Done(Translation.Commit(d1, b, p, x))
      else
        var v := Cleaner.SelectBlockToClean(d1);
        if v < 0 then Exhausted(d1)
        else
          var d2 := CleanBlock(d1, v);
          var q := FindFreePage(d2, -1);
          if q < 0 then Exhausted(d2) else Done(Translation.Commit(d2, b, q, x))
  }

  /** Storing on a Free page after the block has been unmapped. */
  lemma CommitUnmapped(d: Disk, b: int, p: int, x: Data)
    requires Inv(d) && 0 <= b < d.diskBlocks && d.blockToPage[b] == -1
    requires 0 <= p < d.flashPages && d.pageStatus[p] == Free
    ensures Inv(Translation.Commit(d, b, p, x))
    ensures forall e :: 0 <= e < d.diskBlocks && e != b ==> View(Translation.Commit(d, b, p, x), e) == View(d, e)
    ensures FreePages(Translation.Commit(d, b, p, x)) + 1 == FreePages(d)
  {
    assert Retire(d, b) == d;
    CommitUpdates(d, b, p, x);
  }

  /** A corrected write on a coherent state keeps the maps coherent, and a
      successful one changes what block `b` reads to `x` and nothing else. */
  lemma WriteCorrect(d: Disk, b: int, x: Data)
    requires Inv(d) && 0 <= b < d.diskBlocks
    ensures !DiskWrite(d, b, x).Rejected? && Inv(DiskWrite(d, b, x).disk)
    ensures DiskWrite(d, b, x).Done? ==>
              forall e :: 0 <= e < d.diskBlocks && e != b ==> View(DiskWrite(d, b, x).disk, e) == View(d, e)
  {
    var d1 := Unmap(d, b);
    var p := FindFreePage(d1, -1);
    if p >= 0 {
      assert DiskWrite(d, b, x) == Done(Translation.Commit(d1, b, p, x));
      CommitUnmapped(d1, b, p, x);
    } else {
      var v := Cleaner.SelectBlockToClean(d1);
      if v < 0 {
        assert DiskWrite(d, b, x) == Exhausted(d1);
      } else {
        var d2 := CleanBlock(d1, v);
        CleanPreserves(d1, v);
        var q := FindFreePage(d2, -1);
        if q >= 0 {
          assert DiskWrite(d, b, x) == Done(Translation.Commit(d2, b, q, x));
          CommitUnmapped(d2, b, q, x);
        } else {
          assert DiskWrite(d, b, x) == Exhausted(d2);
        }
      }
    }
  }

  /** The logical blocks owning the Valid pages among the first `n`, in page order. */
  ghost function Owners(d: Disk, n: nat): (f: seq<int>)
    requires Inv(d) && n <= d.flashPages
    ensures |f| == Counting.Count(d.pageStatus[..n], Valid)
    ensures forall i :: 0 <= i < |f| ==> 0 <= f[i] < d.diskBlocks && 0 <= d.blockToPage[f[i]] < n
    ensures forall i, j :: 0 <= i < j < |f| ==> f[i] != f[j]
  {
    if n == 0 then []
    else
      var f := Owners(d, n - 1);
      var g := if d.pageStatus[n - 1] == Valid then f + [d.pageToBlock[n - 1]] else f;
      OwnersStep(d, n, f, g);
      g
  }

  /** Page `n - 1` adds its owner, new to the owners of the pages before it,
      exactly when it is Valid. */
  lemma OwnersStep(d: Disk, n: nat, f: seq<int>, g: seq<int>)
    requires Inv(d) && 0 < n <= d.flashPages
    requires |f| == Counting.Count(d.pageStatus[..n - 1], Valid)
    requires forall i :: 0 <= i < |f| ==> 0 <= f[i] < d.diskBlocks && 0 <= d.blockToPage[f[i]] < n - 1
    requires forall i, j :: 0 <= i < j < |f| ==> f[i] != f[j]
    requires g == if d.pageStatus[n - 1] == Valid then f + [d.pageToBlock[n - 1]] else f
    ensures |g| == Counting.Count(d.pageStatus[..n], Valid)
    ensures forall i :: 0 <= i < |g| ==> 0 <= g[i] < d.diskBlocks && 0 <= d.blockToPage[g[i]] < n
    ensures forall i, j :: 0 <= i < j < |g| ==> g[i] != g[j]
  {
    Counting.CountPrefix(d.pageStatus, n, Valid);
    if d.pageStatus[n - 1] == Valid {
      OwnersAppend(d, n, f);
    }
  }

  /** The owner of Valid page `n - 1` is new to the owners of the pages before it. */
  lemma OwnersAppend(d: Disk, n: nat, f: seq<int>)
    requires Inv(d) && 0 < n <= d.flashPages && d.pageStatus[n - 1] == Valid
    requires forall i :: 0 <= i < |f| ==> 0 <= f[i] < d.diskBlocks && 0 <= d.blockToPage[f[i]] < n - 1
    requires forall i, j :: 0 <= i < j < |f| ==> f[i] != f[j]
    ensures var g := f + [d.pageToBlock[n - 1]];
            && (forall i :: 0 <= i < |g| ==> 0 <= g[i] < d.diskBlocks && 0 <= d.blockToPage[g[i]] < n)
            && (forall i, j :: 0 <= i < j < |g| ==> g[i] != g[j])
  {
    var o := d.pageToBlock[n - 1];
    assert 0 <= o < d.diskBlocks && d.blockToPage[o] == n - 1;
    var g := f + [o];
    forall i, j | 0 <= i < j < |g|
      ensures g[i] != g[j]
    {
      if j == |f| {
        assert d.blockToPage[g[i]] < n - 1;
      } else {
        assert g[i] == f[i] && g[j] == f[j];
      }
    }
  }

  /** On a coherent state there are at most as many Valid pages as logical
      blocks: each Valid page is the current page of a different block. */
  lemma ValidBound(d: Disk)
    requires Inv(d)
    ensures Counting.Count(d.pageStatus, Valid) <= d.diskBlocks
  {
    var f := Owners(d, d.flashPages);
    assert d.pageStatus[..d.flashPages] == d.pageStatus;
    Counting.DistinctBound(f, d.diskBlocks);
  }

  /** With no Free page and fewer logical blocks than pages, some block has
      an Invalid page, so there is a victim to clean. */
  lemma SomeInvalid(d: Disk)
    requires Inv(d) && d.diskBlocks < d.flashPages && FreePages(d) == 0
    ensures Cleaner.SelectBlockToClean(d) >= 0
  {
    ValidBound(d);
    Counting.CountPartition(d.pageStatus, Free, Valid, Invalid);
    Counting.CountZero(d.pageStatus, Invalid);
    var p :| 0 <= p < d.flashPages && d.pageStatus[p] == Invalid;
    var c := PageBlock(d, p);
    BlockBounds(d, c);
    var s := d.pageStatus[BlockStart(d, c)..BlockStart(d, c) + d.pagesPerBlock];
    assert s[p - BlockStart(d, c)] == Invalid;
    Counting.CountZero(s, Invalid);
    assert CountIn(d, c, Invalid) > 0;
  }

  /** A corrected write never runs out of pages while there are fewer logical
      blocks than flash pages. */
  lemma NeverExhausted(d: Disk, b: int, x: Data)
    requires Inv(d) && 0 <= b < d.diskBlocks && d.diskBlocks < d.flashPages
    ensures DiskWrite(d, b, x).Done?
  {
    var d1 := Unmap(d, b);
    var p := FindFreePage(d1, -1);
    if p < 0 {
      if FreePages(d1) > 0 {
        FreeWitness(d1);
      }
      SomeInvalid(d1);
      var v := Cleaner.SelectBlockToClean(d1);
      CleanPreserves(d1, v);
      FreeWitness(CleanBlock(d1, v));
    }
  }

  /** On a coherent state a corrected write reports exhaustion only when the
      block was unmapped and every page is Valid, and then nothing changed. */
  lemma ExhaustedUnchanged(d: Disk, b: int, x: Data)
    requires Inv(d) && 0 <= b < d.diskBlocks && DiskWrite(d, b, x).Exhausted?
    ensures DiskWrite(d, b, x).disk == d && d.blockToPage[b] == -1
    ensures forall p :: 0 <= p < d.flashPages ==> d.pageStatus[p] == Valid
  {
    var d1 := Unmap(d, b);
    var v := ExhaustedNoVictim(d, b, x);
    assert DiskWrite(d, b, x) == Exhausted(d1);
    forall q | 0 <= q < d1.flashPages
      ensures d1.pageStatus[q] == Valid
    {
      if d1.pageStatus[q] == Invalid {
        NoInvalidIn(d1, q);
      }
    }
    if d.blockToPage[b] >= 0 {
      assert false;
    }
  }

  /** Exhaustion on a coherent state happens before any cleaning: nothing is
      Free after unmapping and there is no victim. */
  lemma ExhaustedNoVictim(d: Disk, b: int, x: Data) returns (v: int)
    requires Inv(d) && 0 <= b < d.diskBlocks && DiskWrite(d, b, x).Exhausted?
    ensures v == Cleaner.SelectBlockToClean(Unmap(d, b)) && v == -1
    ensures NoFreeOutside(Unmap(d, b), -1)
  {
    var d1 := Unmap(d, b);
    v := Cleaner.SelectBlockToClean(d1);
    if v >= 0 {
      var d2 := CleanBlock(d1, v);
      CleanPreserves(d1, v);
      FreeWitness(d2);
      assert false;
    }
  }

  /** An Invalid page makes its block's Invalid count positive. */
  lemma NoInvalidIn(d: Disk, q: int)
    requires Wf(d) && 0 <= q < d.flashPages && d.pageStatus[q] == Invalid
    ensures exists c :: 0 <= c < d.flashBlocks && CountIn(d, c, Invalid) > 0
  {
    var c := PageBlock(d, q);
    BlockBounds(d, c);
    var s := d.pageStatus[BlockStart(d, c)..BlockStart(d, c) + d.pagesPerBlock];
    assert s[q - BlockStart(d, c)] == Invalid;
    Counting.CountZero(s, Invalid);
    assert CountIn(d, c, Invalid) > 0;
  }

  // ------------------------------------------------------------ refinement

  /** What each logical block reads: the abstract disk the layer implements. */
  function Memory(d: Disk): (m: seq<Data>)
    requires Wf(d)
    ensures |m| == d.diskBlocks
    ensures forall b :: 0 <= b < d.diskBlocks ==> m[b] == Translation.DiskRead(d, b).data
  {
    seq(d.diskBlocks, b requires 0 <= b < d.diskBlocks => View(d, b))
  }

  /** A successful corrected write is an array store on the abstract disk. */
  lemma WriteRefines(d: Disk, b: int, x: Data)
    requires Inv(d) && 0 <= b < d.diskBlocks && DiskWrite(d, b, x).Done?
    ensures Memory(DiskWrite(d, b, x).disk) == Memory(d)[b := x]
  {
    WriteCorrect(d, b, x);
  }

  /** Cleaning is invisible on the abstract disk. */
  lemma CleanRefines(d: Disk, v: nat)
    requires Inv(d) && v < d.flashBlocks
    ensures Memory(CleanBlock(d, v)) == Memory(d)
  {
    CleanPreserves(d, v);
  }
}

=== FILE: scenarios.dfy ===
/** Concrete runs of the translation layer as disk.c writes it, exhibiting
    where it goes wrong, and the same runs under the corrected layer. */
module Scenarios {

  import opened Tables
  import opened Allocator
  import opened Cleaner
  import opened Translation
  import Repaired

  // ------------------------------------------------ a write with no page

  /** Three flash blocks of one page, two logical blocks, after writing 7 to
      block 0, 8 to block 1 and 9 to block 0 on a fresh layer: page 0 holds
      stale data, pages 1 and 2 hold blocks 1 and 0. */
  function ThreeWrites(): (d: Disk)
    ensures Inv(d)
  {
    Disk(2, 3, 1, 3, [2, 1], [-1, 1, 0], [Invalid, Valid, Valid], [0, 0, 0], [7, 8, 9], 0, 3)
  }

  /** The state above is where three writes on a fresh layer lead. */
  lemma ThreeWritesReached()
    ensures var d0 := DiskCreate(3, 1, 2, [0, 0, 0]);
      && DiskWrite(d0, 0, 7).WriteDone?
      && DiskWrite(DiskWrite(d0, 0, 7).disk, 1, 8).WriteDone?
      && DiskWrite(DiskWrite(DiskWrite(d0, 0, 7).disk, 1, 8).disk, 0, 9)
           == WriteDone(ThreeWrites())
  {
    var d0 := DiskCreate(3, 1, 2, [0, 0, 0]);
    var d1 := Disk(2, 3, 1, 3, [0, -1], [0, -1, -1], [Valid, Free, Free], [0, 0, 0], [7, 0, 0], 0, 1);
    var d2 := Disk(2, 3, 1, 3, [0, 1], [0, 1, -1], [Valid, Valid, Free], [0, 0, 0], [7, 8, 0], 0, 2);
    var e := Disk(2, 3, 1, 3, [-1, -1], [-1, -1, -1], [Free, Free, Free], [0, 0, 0], [0, 0, 0], 0, 0);
    FreshLayer(d0, e);
    FirstWrite(e, d1);
    SecondWrite(d1, d2);
    ThirdWrite(d2);
  }

  /** A write that finds page `p` Free without cleaning commits there. */
  lemma WriteAt(d: Disk, b: int, x: Data, p: int)
    requires Wf(d) && 0 <= b < d.diskBlocks && 0 <= p < d.flashPages
    requires FindFreePage(Retire(d, b), -1) == p
    ensures DiskWrite(d, b, x) == WriteDone(Commit(Retire(d, b), b, p, x))
  {
    assert Allocate(Retire(d, b)) == Attempt(Retire(d, b), p);
  }

  /** A commit is determined by the four table updates it makes. */
  lemma CommitIs(m: Disk, b: int, p: int, x: Data, r: Disk)
    requires Wf(m) && 0 <= b < m.diskBlocks && 0 <= p < m.flashPages
    requires r.blockToPage == m.blockToPage[b := p] && r.pageToBlock == m.pageToBlock[p := b]
    requires r.pageStatus == m.pageStatus[p := Valid] && r.flash == m.flash[p := x]
    requires SameShape(m, r) && r.eraseCount == m.eraseCount
    requires r.nreads == m.nreads && r.nwrites == m.nwrites + 1
    ensures Commit(m, b, p, x) == r
  {
  }

  lemma FirstCommit(e: Disk, d1: Disk)
    requires e == Disk(2, 3, 1, 3, [-1, -1], [-1, -1, -1], [Free, Free, Free], [0, 0, 0], [0, 0, 0], 0, 0)
    requires d1 == Disk(2, 3, 1, 3, [0, -1], [0, -1, -1], [Valid, Free, Free], [0, 0, 0], [7, 0, 0], 0, 1)
    ensures Commit(e, 0, 0, 7) == d1
  {
    CommitIs(e, 0, 0, 7, d1);
  }

  lemma SecondCommit(d1: Disk, d2: Disk)
    requires d1 == Disk(2, 3, 1, 3, [0, -1], [0, -1, -1], [Valid, Free, Free], [0, 0, 0], [7, 0, 0], 0, 1)
    requires d2 == Disk(2, 3, 1, 3, [0, 1], [0, 1, -1], [Valid, Valid, Free], [0, 0, 0], [7, 8, 0], 0, 2)
    ensures Commit(d1, 1, 1, 8) == d2
  {
    CommitIs(d1, 1, 1, 8, d2);
  }

  lemma ThirdCommit(r: Disk, d3: Disk)
    requires r == Disk(2, 3, 1, 3, [0, 1], [-1, 1, -1], [Invalid, Valid, Free], [0, 0, 0], [7, 8, 0], 0, 2)
    requires d3 == Disk(2, 3, 1, 3, [2, 1], [-1, 1, 0], [Invalid, Valid, Valid], [0, 0, 0], [7, 8, 9], 0, 3)
    ensures Commit(r, 0, 2, 9) == d3
  {
    CommitIs(r, 0, 2, 9, d3);
  }

  lemma FirstWrite(e: Disk, d1: Disk)
    requires e == Disk(2, 3, 1, 3, [-1, -1], [-1, -1, -1], [Free, Free, Free], [0, 0, 0], [0, 0, 0], 0, 0)
    requires d1 == Disk(2, 3, 1, 3, [0, -1], [0, -1, -1], [Valid, Free, Free], [0, 0, 0], [7, 0, 0], 0, 1)
    ensures DiskWrite(e, 0, 7) == WriteDone(d1)
  {
    assert Retire(e, 0) == e;
    FirstWritePage(e);
    WriteAt(e, 0, 7, 0);
    FirstCommit(e, d1);
  }

  lemma FreshLayer(d0: Disk, e: Disk)
    requires d0 == DiskCreate(3, 1, 2, [0, 0, 0])
    requires e == Disk(2, 3, 1, 3, [-1, -1], [-1, -1, -1], [Free, Free, Free], [0, 0, 0], [0, 0, 0], 0, 0)
    ensures d0 == e
  {
    assert d0.blockToPage == e.blockToPage;
    assert d0.pageToBlock == e.pageToBlock;
    assert d0.pageStatus == e.pageStatus;
    assert d0.eraseCount == e.eraseCount;
  }

  lemma FirstWritePage(e: Disk)
    requires e == Disk(2, 3, 1, 3, [-1, -1], [-1, -1, -1], [Free, Free, Free], [0, 0, 0], [0, 0, 0], 0, 0)
    ensures FindFreePage(e, -1) == 0
  {
    assert BestBlock(e, -1) == 0;
    assert FirstFreeIn(e, 0) == 0;
  }

  lemma SecondWrite(d1: Disk, d2: Disk)
    requires d1 == Disk(2, 3, 1, 3, [0, -1], [0, -1, -1], [Valid, Free, Free], [0, 0, 0], [7, 0, 0], 0, 1)
    requires d2 == Disk(2, 3, 1, 3, [0, 1], [0, 1, -1], [Valid, Valid, Free], [0, 0, 0], [7, 8, 0], 0, 2)
    ensures DiskWrite(d1, 1, 8) == WriteDone(d2)
  {
    assert Retire(d1, 1) == d1;
    SecondWritePage(d1);
    WriteAt(d1, 1, 8, 1);
    SecondCommit(d1, d2);
  }

  lemma SecondWritePage(d1: Disk)
    requires d1 == Disk(2, 3, 1, 3, [0, -1], [0, -1, -1], [Valid, Free, Free], [0, 0, 0], [7, 0, 0], 0, 1)
    ensures FindFreePage(d1, -1) == 1
  {
    assert BestBlock(d1, -1) == 0;
    assert BlockFull(d1, 0);
    assert d1.pageStatus[1] == Free && !InBlock(d1, 1, -1);
  }

  lemma ThirdWrite(d2: Disk)
    requires d2 == Disk(2, 3, 1, 3, [0, 1], [0, 1, -1], [Valid, Valid, Free], [0, 0, 0], [7, 8, 0], 0, 2)
    ensures DiskWrite(d2, 0, 9) == WriteDone(ThreeWrites())
  {
    var r := Disk(2, 3, 1, 3, [0, 1], [-1, 1, -1], [Invalid, Valid, Free], [0, 0, 0], [7, 8, 0], 0, 2);
    assert Retire(d2, 0) == r;
    ThirdWritePage(r);
    WriteAt(d2, 0, 9, 2);
    ThirdCommit(r, ThreeWrites());
  }

  lemma ThirdWritePage(r: Disk)
    requires r == Disk(2, 3, 1, 3, [0, 1], [-1, 1, -1], [Invalid, Valid, Free], [0, 0, 0], [7, 8, 0], 0, 2)
    ensures FindFreePage(r, -1) == 2
  {
    assert BestBlock(r, -1) == 0;
    assert BlockFull(r, 0);
    assert r.pageStatus[2] == Free && !InBlock(r, 2, -1);
  }

  /** The fourth write, of 10 to block 0, retires page 2 and finds no Free
      page. Block 0 has the most Invalid pages and is cleaned; the retry
      avoids it and finds nothing, since the least-erased candidate, block 1,
      is full and block 2 holds only the retired page. The fallback cleans
      block 1, the least-erased block, moving block 1 to page 0; the last
      retry avoids block 1 and again finds nothing, although page 1 is Free.
      The model stops here; disk.c goes on with page -1. */
  lemma FourthWriteFaults()
    ensures DiskWrite(ThreeWrites(), 0, 10) == WriteFault(AfterFallback())
    ensures FreePages(AfterFallback()) == 1 && AfterFallback().pageStatus[1] == Free
    ensures AfterFallback().blockToPage[0] == 2 && AfterFallback().pageStatus[2] == Invalid
  {
    var d := ThreeWrites();
    var d1 := Disk(2, 3, 1, 3, [2, 1], [-1, 1, -1], [Invalid, Valid, Invalid], [0, 0, 0], [7, 8, 9], 0, 3);
    assert Retire(d, 0) == d1;
    FourthAllocation(d1);
    OneFreeLeft();
  }

  lemma OneFreeLeft()
    ensures FreePages(AfterFallback()) == 1
  {
    var s := AfterFallback().pageStatus;
    assert s == [Valid, Free, Invalid];
    assert s[1..][1..] == [Invalid];
  }

  /** The allocation of the fourth write, on the state with page 2 retired. */
  lemma FourthAllocation(d1: Disk)
    requires d1 == Disk(2, 3, 1, 3, [2, 1], [-1, 1, -1], [Invalid, Valid, Invalid], [0, 0, 0], [7, 8, 9], 0, 3)
    ensures Allocate(d1) == Attempt(AfterFallback(), -1)
  {
    var d2 := Disk(2, 3, 1, 3, [2, 1], [-1, 1, -1], [Free, Valid, Invalid], [1, 0, 0], [0, 8, 9], 0, 3);
    var d3 := AfterFallback();
    NothingFree(d1);
    MostInvalidIsZero(d1);
    CleanZero(d1, d2);
    RetryZeroFails(d2);
    CleanOne(d2, d3);
    RetryOneFails(d3);
    assert Reclaim(d1) == Attempt(d3, -1);
  }

  /** The state in which the fourth write gives up. Logical block 0 still
      points at its retired page. */
  function AfterFallback(): (d: Disk)
    ensures Wf(d) && !Coherent(d)
  {
    var d := Disk(2, 3, 1, 3, [2, 0], [1, -1, -1], [Valid, Free, Invalid], [1, 1, 0], [8, 0, 9], 0, 3);
    assert d.blockToPage[0] >= 0 && d.pageStatus[d.blockToPage[0]] != Valid;
    d
  }

  lemma NothingFree(d1: Disk)
    requires d1 == Disk(2, 3, 1, 3, [2, 1], [-1, 1, -1], [Invalid, Valid, Invalid], [0, 0, 0], [7, 8, 9], 0, 3)
    ensures FindFreePage(d1, -1) == -1
  {
    assert NoFreeOutside(d1, -1);
  }

  lemma MostInvalidIsZero(d1: Disk)
    requires d1 == Disk(2, 3, 1, 3, [2, 1], [-1, 1, -1], [Invalid, Valid, Invalid], [0, 0, 0], [7, 8, 9], 0, 3)
    ensures SelectBlockToClean(d1) == 0
  {
    InvalidCounts(d1);
    FirstOfThree(d1);
  }

  /** Of three blocks with one, none and one Invalid page, the first is chosen. */
  lemma FirstOfThree(d: Disk)
    requires Wf(d) && d.flashBlocks == 3
    requires CountIn(d, 0, Invalid) == 1 && CountIn(d, 1, Invalid) == 0 && CountIn(d, 2, Invalid) == 1
    ensures SelectBlockToClean(d) == 0
  {
    var r := SelectBlockToClean(d);
    assert r == 0 || r == 1 || r == 2;
  }

  lemma InvalidCounts(d1: Disk)
    requires d1 == Disk(2, 3, 1, 3, [2, 1], [-1, 1, -1], [Invalid, Valid, Invalid], [0, 0, 0], [7, 8, 9], 0, 3)
    ensures CountIn(d1, 0, Invalid) == 1 && CountIn(d1, 1, Invalid) == 0 && CountIn(d1, 2, Invalid) == 1
  {
    assert d1.pageStatus[0..1] == [Invalid];
    assert d1.pageStatus[1..2] == [Valid];
    assert d1.pageStatus[2..3] == [Invalid];
  }

  /** With one page per block, cleaning is one migration step and the erase. */
  lemma OnePageClean(d: Disk, v: nat, m: Disk)
    requires Wf(d) && v < d.flashBlocks && d.pagesPerBlock == 1
    requires InBlock(d, BlockStart(d, v), v) && 0 <= BlockStart(d, v) < d.flashPages
    requires MigratePage(d, v, BlockStart(d, v)) == m
    ensures CleanBlock(d, v) == EraseBlock(m, v)
  {
    MigrateUnfold(d, v, 0);
    assert Migrate(m, v, 1) == m;
  }

  lemma CleanZero(d1: Disk, d2: Disk)
    requires d1 == Disk(2, 3, 1, 3, [2, 1], [-1, 1, -1], [Invalid, Valid, Invalid], [0, 0, 0], [7, 8, 9], 0, 3)
    requires d2 == Disk(2, 3, 1, 3, [2, 1], [-1, 1, -1], [Free, Valid, Invalid], [1, 0, 0], [0, 8, 9], 0, 3)
    ensures CleanBlock(d1, 0) == d2
  {
    assert MigratePage(d1, 0, 0) == d1;
    OnePageClean(d1, 0, d1);
    EraseZero(d1, d2);
  }

  lemma EraseZero(d1: Disk, d2: Disk)
    requires d1 == Disk(2, 3, 1, 3, [2, 1], [-1, 1, -1], [Invalid, Valid, Invalid], [0, 0, 0], [7, 8, 9], 0, 3)
    requires d2 == Disk(2, 3, 1, 3, [2, 1], [-1, 1, -1], [Free, Valid, Invalid], [1, 0, 0], [0, 8, 9], 0, 3)
    ensures EraseBlock(d1, 0) == d2
  {
    var r := EraseBlock(d1, 0);
    assert InBlock(d1, 0, 0) && !InBlock(d1, 1, 0) && !InBlock(d1, 2, 0);
    assert r.flash == d2.flash;
    assert r.pageStatus == d2.pageStatus;
    assert r.pageToBlock == d2.pageToBlock;
  }

  lemma RetryZeroFails(d2: Disk)
    requires d2 == Disk(2, 3, 1, 3, [2, 1], [-1, 1, -1], [Free, Valid, Invalid], [1, 0, 0], [0, 8, 9], 0, 3)
    ensures FindFreePage(d2, 0) == -1 && MinEraseBlock(d2) == 1
  {
    assert BestBlock(d2, 0) == 1;
    assert NoFreeOutside(d2, 0);
    assert BlockFull(d2, 1);
  }

  lemma CleanOne(d2: Disk, d3: Disk)
    requires d2 == Disk(2, 3, 1, 3, [2, 1], [-1, 1, -1], [Free, Valid, Invalid], [1, 0, 0], [0, 8, 9], 0, 3)
    requires d3 == AfterFallback()
    ensures CleanBlock(d2, 1) == d3
  {
    var m := Disk(2, 3, 1, 3, [2, 0], [1, 1, -1], [Valid, Valid, Invalid], [1, 0, 0], [8, 8, 9], 0, 3);
    MoveOne(d2, m);
    OnePageClean(d2, 1, m);
    EraseOne(m, d3);
  }

  lemma EraseOne(m: Disk, d3: Disk)
    requires m == Disk(2, 3, 1, 3, [2, 0], [1, 1, -1], [Valid, Valid, Invalid], [1, 0, 0], [8, 8, 9], 0, 3)
    requires d3 == Disk(2, 3, 1, 3, [2, 0], [1, -1, -1], [Valid, Free, Invalid], [1, 1, 0], [8, 0, 9], 0, 3)
    ensures EraseBlock(m, 1) == d3
  {
    var r := EraseBlock(m, 1);
    assert !InBlock(m, 0, 1) && InBlock(m, 1, 1) && !InBlock(m, 2, 1);
    assert r.flash == d3.flash;
    assert r.pageStatus == d3.pageStatus;
    assert r.pageToBlock == d3.pageToBlock;
  }

  lemma MoveOne(d2: Disk, m: Disk)
    requires d2 == Disk(2, 3, 1, 3, [2, 1], [-1, 1, -1], [Free, Valid, Invalid], [1, 0, 0], [0, 8, 9], 0, 3)
    requires m == Disk(2, 3, 1, 3, [2, 0], [1, 1, -1], [Valid, Valid, Invalid], [1, 0, 0], [8, 8, 9], 0, 3)
    ensures Wf(d2) && BlockStart(d2, 1) == 1 && InBlock(d2, 1, 1)
    ensures MigratePage(d2, 1, BlockStart(d2, 1)) == m
  {
    MoveOneTarget(d2);
    assert BlockStart(d2, 1) == 1;
    CurrentPageMoves(d2, 1, 1, 0);
    MoveOneInstall(d2, m);
  }

  lemma MoveOneTarget(d2: Disk)
    requires d2 == Disk(2, 3, 1, 3, [2, 1], [-1, 1, -1], [Free, Valid, Invalid], [1, 0, 0], [0, 8, 9], 0, 3)
    ensures FindFreePage(d2, 1) == 0
  {
    assert BestBlock(d2, 1) == 2;
    assert BlockFull(d2, 2);
    assert d2.pageStatus[0] == Free && !InBlock(d2, 0, 1);
  }

  lemma MoveOneInstall(d2: Disk, m: Disk)
    requires d2 == Disk(2, 3, 1, 3, [2, 1], [-1, 1, -1], [Free, Valid, Invalid], [1, 0, 0], [0, 8, 9], 0, 3)
    requires m == Disk(2, 3, 1, 3, [2, 0], [1, 1, -1], [Valid, Valid, Invalid], [1, 0, 0], [8, 8, 9], 0, 3)
    ensures Install(d2, 1, 0, 8) == m
  {
    assert d2.blockToPage[1 := 0] == m.blockToPage;
    assert d2.pageToBlock[0 := 1] == m.pageToBlock;
    assert d2.pageStatus[0 := Valid] == m.pageStatus;
    assert d2.flash[0 := 8] == m.flash;
  }

  lemma RetryOneFails(d3: Disk)
    requires d3 == AfterFallback()
    ensures FindFreePage(d3, 1) == -1
  {
    assert BestBlock(d3, 1) == 2;
    assert NoFreeOutside(d3, 1);
    assert BlockFull(d3, 2);
  }

  // ------------------------------------------- cleaning block 0

  /** Two flash blocks of two pages and two logical blocks: block 0 holds
      logical block 0 on page 1 (the data 5); block 1 holds logical block 1
      on page 2 and has page 3 Free; page 0 is Free. */
  function ZeroVictimState(): (d: Disk)
    ensures Inv(d)
  {
    Disk(2, 4, 2, 2, [1, 2], [-1, 0, 1, -1], [Free, Valid, Valid, Free], [0, 0], [0, 5, 6, 0], 0, 0)
  }

  /** In that state `find_free_page(d, 0)` returns page 0: block 0 is the
      seed of the least-erased scan and is kept on a tie, and page 0 is its
      first Free page. */
  lemma ZeroVictimTarget()
    ensures FindFreePage(ZeroVictimState(), 0) == 0
  {
    var d := ZeroVictimState();
    assert BestBlock(d, 0) == 0;
    assert d.pageStatus[0] == Free;
    assert FirstFreeIn(d, 0) == 0;
  }

  /** So the migration loop skips the Free page 0 ... */
  lemma ZeroVictimSkip()
    ensures MigratePage(ZeroVictimState(), 0, 0) == ZeroVictimState()
  {
  }

  /** ... and copies logical block 0 from page 1 to page 0. */
  lemma ZeroVictimCopy()
    ensures MigratePage(ZeroVictimState(), 0, 1) == Install(ZeroVictimState(), 0, 0, 5)
  {
    ZeroVictimTarget();
  }

  lemma ZeroVictimMigrates()
    ensures Migrate(ZeroVictimState(), 0, 0) == Install(ZeroVictimState(), 0, 0, 5)
  {
    var d := ZeroVictimState();
    var m := Install(d, 0, 0, 5);
    ZeroVictimSkip();
    ZeroVictimCopy();
    MigrateUnfold(d, 0, 0);
    MigrateUnfold(d, 0, 1);
    assert Migrate(m, 0, 2) == m;
  }

  /** Erasing block 0 after that copy leaves logical block 0 on a Free, zeroed page. */
  lemma ZeroVictimErased()
    ensures var r := EraseBlock(Install(ZeroVictimState(), 0, 0, 5), 0);
            r.blockToPage[0] == 0 && r.pageStatus[0] == Free && View(r, 0) == Zero && !Coherent(r)
  {
    assert InBlock(ZeroVictimState(), 0, 0);
  }

  /** `clean_block(d, 0)` called directly on that state (`disk_write` never
      cleans block 0 while block 0 has a Free page): `find_free_page(d, 0)` offers page 0,
      inside the victim, although page 3 is Free; logical block 0 is copied
      there, the erase wipes it, and the block now reads zero instead of 5
      with its forward entry on a Free page. */
  lemma ZeroVictimLoses()
    ensures View(ZeroVictimState(), 0) == 5
    ensures var r := CleanBlock(ZeroVictimState(), 0);
            r.blockToPage[0] == 0 && r.pageStatus[0] == Free && View(r, 0) == Zero && !Coherent(r)
  {
    ZeroVictimMigrates();
    ZeroVictimErased();
  }

  // ------------------------------------------- the same runs, corrected

  /** On that state the corrected allocator, avoiding block 0, offers page 3
      in block 1, and corrected cleaning of block 0 keeps logical block 0
      reading 5. */
  lemma ZeroVictimKept()
    ensures Repaired.FindFreePage(ZeroVictimState(), 0) == 3
    ensures View(Repaired.CleanBlock(ZeroVictimState(), 0), 0) == 5
  {
    var d := ZeroVictimState();
    ZeroVictimAvoided(d);
    assert View(d, 0) == 5;
    CleanKeeps(d, 0, 0);
  }

  /** Corrected cleaning of any block keeps any logical block's data. */
  lemma CleanKeeps(d: Disk, v: nat, b: int)
    requires Inv(d) && v < d.flashBlocks && 0 <= b < d.diskBlocks
    ensures View(Repaired.CleanBlock(d, v), b) == View(d, b)
  {
    Repaired.CleanPreserves(d, v);
  }

  lemma ZeroVictimAvoided(d: Disk)
    requires d == ZeroVictimState()
    ensures Wf(d) && Repaired.FindFreePage(d, 0) == 3
  {
    assert Repaired.BestBlock(d, 0) == 1;
    assert d.pageStatus[2] != Free && d.pageStatus[3] == Free;
    assert FirstFreeIn(d, 1) == 3;
  }

  /** With the corrected write, the fourth write of the first run succeeds:
      block 0 reads 10 and block 1 still reads 8. */
  lemma FourthWriteSucceeds()
    ensures Repaired.DiskWrite(ThreeWrites(), 0, 10).Done?
    ensures View(Repaired.DiskWrite(ThreeWrites(), 0, 10).disk, 0) == 10
    ensures View(Repaired.DiskWrite(ThreeWrites(), 0, 10).disk, 1) == 8
  {
    var d := ThreeWrites();
    assert View(d, 1) == 8;
    CorrectWriteKeeps(d, 0, 10, 1);
  }

  /** A corrected write on a layer with a spare page completes, and another
      logical block keeps its data. */
  lemma CorrectWriteKeeps(d: Disk, b: int, x: Data, c: int)
    requires Inv(d) && 0 <= b < d.diskBlocks && d.diskBlocks < d.flashPages
    requires 0 <= c < d.diskBlocks && c != b
    ensures Repaired.DiskWrite(d, b, x).Done?
    ensures View(Repaired.DiskWrite(d, b, x).disk, b) == x
    ensures View(Repaired.DiskWrite(d, b, x).disk, c) == View(d, c)
  {
    Repaired.NeverExhausted(d, b, x);
    Repaired.WriteCorrect(d, b, x);
  }

  // ------------------------------------ a dropped block that aliases another

  /** Two flash blocks of two pages, four logical blocks, every page Valid:
      blocks 2 and 3 sit on pages 0 and 1 (data 30 and 40), blocks 0 and 1 on
      pages 2 and 3 (data 10 and 20). */
  function AliasState(): (d: Disk)
    ensures Inv(d)
  {
    Disk(4, 4, 2, 2, [2, 3, 0, 1], [2, 3, 0, 1], [Valid, Valid, Valid, Valid], [0, 0], [30, 40, 10, 20], 0, 0)
  }

  // The states the write below passes through, one predicate each.

  /** Page 2 retired. */
  predicate AliasRetired(d: Disk) {
    d == Disk(4, 4, 2, 2, [2, 3, 0, 1], [2, 3, -1, 1], [Valid, Valid, Invalid, Valid], [0, 0], [30, 40, 10, 20], 0, 0)
  }

  /** Block 1 erased; logical block 1 still points at page 3. */
  predicate AliasFirstErased(d: Disk) {
    d == Disk(4, 4, 2, 2, [2, 3, 0, 1], [2, 3, -1, -1], [Valid, Valid, Free, Free], [0, 1], [30, 40, 0, 0], 0, 0)
  }

  /** Logical block 2 moved to page 2. */
  predicate AliasMovedOne(d: Disk) {
    d == Disk(4, 4, 2, 2, [2, 3, 2, 1], [2, 3, 2, -1], [Valid, Valid, Valid, Free], [0, 1], [30, 40, 30, 0], 0, 0)
  }

  /** Logical block 3 moved to page 3 as well. */
  predicate AliasMovedTwo(d: Disk) {
    d == Disk(4, 4, 2, 2, [2, 3, 2, 3], [2, 3, 2, 3], [Valid, Valid, Valid, Valid], [0, 1], [30, 40, 30, 40], 0, 0)
  }

  /** Block 0 erased. */
  predicate AliasSecondErased(d: Disk) {
    d == Disk(4, 4, 2, 2, [2, 3, 2, 3], [-1, -1, 2, 3], [Free, Free, Valid, Valid], [1, 1], [0, 0, 30, 40], 0, 0)
  }

  /** 99 stored for logical block 0 on page 0. */
  predicate AliasWritten(d: Disk) {
    d == Disk(4, 4, 2, 2, [0, 3, 2, 3], [0, -1, 2, 3], [Valid, Free, Valid, Valid], [1, 1], [99, 0, 30, 40], 0, 1)
  }

  /** Writing 99 to block 0 of that state retires page 2 and must clean. The
      victim, block 1, loses logical block 1: there is no Free page for it,
      so it stays mapped to page 3, which the erase frees. The fallback then
      cleans block 0 and moves logical block 3 onto that same page 3. The
      write completes, and logical block 1 now reads 40, the data of logical
      block 3, where it read 20 before. */
  lemma DroppedBlockAliases()
    ensures View(AliasState(), 1) == 20 && View(AliasState(), 3) == 40
    ensures DiskWrite(AliasState(), 0, 99).WriteDone?
    ensures var r := DiskWrite(AliasState(), 0, 99).disk;
            r.blockToPage[1] == r.blockToPage[3] && View(r, 1) == 40 && View(r, 3) == 40 && View(r, 0) == 99
  {
    var d := AliasState();
    AliasBefore(d);
    var r := AliasWrite(d);
    AliasAfter(r);
  }

  lemma AliasBefore(d: Disk)
    requires d == AliasState()
    ensures Wf(d) && View(d, 1) == 20 && View(d, 3) == 40
  {
  }

  lemma AliasAfter(r: Disk)
    requires AliasWritten(r)
    ensures Wf(r) && r.diskBlocks == 4
    ensures r.blockToPage[1] == r.blockToPage[3] && View(r, 1) == 40 && View(r, 3) == 40 && View(r, 0) == 99
  {
  }

  lemma AliasWrite(d: Disk) returns (r: Disk)
    requires d == AliasState()
    ensures AliasWritten(r) && DiskWrite(d, 0, 99) == WriteDone(r)
  {
    var d1 := Disk(4, 4, 2, 2, [2, 3, 0, 1], [2, 3, -1, 1], [Valid, Valid, Invalid, Valid], [0, 0], [30, 40, 10, 20], 0, 0);
    assert Retire(d, 0) == d1;
    var e2 := AliasAllocation(d1);
    r := AliasCommit(e2);
  }

  lemma AliasCommit(e2: Disk) returns (r: Disk)
    requires AliasSecondErased(e2)
    ensures Wf(e2) && e2.diskBlocks == 4 && e2.flashPages == 4
    ensures AliasWritten(r) && Wf(r) && Commit(e2, 0, 0, 99) == r
  {
    r := Disk(4, 4, 2, 2, [0, 3, 2, 3], [0, -1, 2, 3], [Valid, Free, Valid, Valid], [1, 1], [99, 0, 30, 40], 0, 1);
    assert e2.blockToPage[0 := 0] == r.blockToPage;
    assert e2.pageToBlock[0 := 0] == r.pageToBlock;
    assert e2.pageStatus[0 := Valid] == r.pageStatus;
    assert e2.flash[0 := 99] == r.flash;
    CommitIs(e2, 0, 0, 99, r);
  }

  /** The allocation of that write: two cleans, then page 0. */
  lemma AliasAllocation(d1: Disk) returns (e2: Disk)
    requires AliasRetired(d1)
    ensures AliasSecondErased(e2) && Allocate(d1) == Attempt(e2, 0)
  {
    AliasNoFree(d1);
    AliasVictim(d1);
    var e1 := AliasFirstAttempt(d1);
    e2 := AliasSecondAttempt(e1);
    ReclaimFallback(d1, 1, e1, 0, e2, 0);
  }

  /** The victim's clean and the retry that finds nothing. */
  lemma AliasFirstAttempt(d1: Disk) returns (e1: Disk)
    requires AliasRetired(d1)
    ensures Wf(d1) && d1.flashBlocks == 2
    ensures AliasFirstErased(e1) && CleanAndRetry(d1, 1) == Attempt(e1, -1)
  {
    e1 := AliasFirstClean(d1);
    AliasRetryFails(e1);
  }

  /** The fallback clean of the least-erased block and the retry that succeeds. */
  lemma AliasSecondAttempt(e1: Disk) returns (e2: Disk)
    requires AliasFirstErased(e1)
    ensures Wf(e1) && MinEraseBlock(e1) == 0
    ensures AliasSecondErased(e2) && CleanAndRetry(e1, 0) == Attempt(e2, 0)
  {
    AliasRetryFails(e1);
    e2 := AliasSecondClean(e1);
    AliasLastRetry(e2);
  }

  /** A reclaim whose retry after the victim's clean fails is the fallback
      clean and its retry. */
  lemma ReclaimFallback(d: Disk, v: nat, e1: Disk, c: nat, e2: Disk, q: int)
    requires Wf(d) && FindFreePage(d, -1) == -1 && SelectBlockToClean(d) == v && v < d.flashBlocks
    requires CleanAndRetry(d, v) == Attempt(e1, -1)
    requires Wf(e1) && MinEraseBlock(e1) == c && CleanAndRetry(e1, c) == Attempt(e2, q)
    ensures Allocate(d) == Attempt(e2, q)
  {
  }

  /** The victim is the first block with the most Invalid pages. */
  lemma SelectIs(d: Disk, v: int)
    requires Wf(d) && 0 <= v < d.flashBlocks && CountIn(d, v, Invalid) > 0
    requires forall c :: 0 <= c < d.flashBlocks ==> CountIn(d, c, Invalid) <= CountIn(d, v, Invalid)
    requires forall c :: 0 <= c < v ==> CountIn(d, c, Invalid) < CountIn(d, v, Invalid)
    ensures SelectBlockToClean(d) == v
  {
    var r := SelectBlockToClean(d);
    assert r != -1;
  }

  lemma AliasVictim(d1: Disk)
    requires AliasRetired(d1)
    ensures Wf(d1) && d1.flashBlocks == 2 && SelectBlockToClean(d1) == 1
  {
    AliasInvalidCounts(d1);
    SelectIs(d1, 1);
  }

  lemma AliasNoFree(d1: Disk)
    requires AliasRetired(d1)
    ensures Wf(d1) && FindFreePage(d1, -1) == -1
  {
    assert NoFreeOutside(d1, -1);
  }

  lemma AliasInvalidCounts(d1: Disk)
    requires AliasRetired(d1)
    ensures Wf(d1) && d1.flashBlocks == 2
    ensures CountIn(d1, 0, Invalid) == 0 && CountIn(d1, 1, Invalid) == 1
  {
    assert d1.pageStatus[0..2] == [Valid, Valid];
    assert d1.pageStatus[2..4] == [Invalid, Valid];
  }

  /** With two pages per block, cleaning is two migration steps and the erase. */
  lemma TwoPageClean(d: Disk, v: nat, m1: Disk, m2: Disk)
    requires Wf(d) && v < d.flashBlocks && d.pagesPerBlock == 2
    requires 0 <= BlockStart(d, v) && BlockStart(d, v) + 1 < d.flashPages
    requires MigratePage(d, v, BlockStart(d, v)) == m1
    requires MigratePage(m1, v, BlockStart(m1, v) + 1) == m2
    ensures CleanBlock(d, v) == EraseBlock(m2, v)
  {
    MigrateUnfold(d, v, 0);
    MigrateUnfold(m1, v, 1);
    assert Migrate(m2, v, 2) == m2;
  }

  /** The first clean: page 2 is Invalid and page 3 finds no page outside
      block 1, so nothing moves and the erase frees both pages. */
  lemma AliasFirstClean(d1: Disk) returns (e1: Disk)
    requires AliasRetired(d1)
    ensures Wf(d1) && d1.flashBlocks == 2
    ensures AliasFirstErased(e1) && Wf(e1) && CleanBlock(d1, 1) == e1
  {
    AliasNoMove(d1);
    TwoPageClean(d1, 1, d1, d1);
    e1 := AliasEraseOne(d1);
  }

  lemma AliasNoMove(d1: Disk)
    requires AliasRetired(d1)
    ensures Wf(d1) && d1.flashBlocks == 2 && d1.pagesPerBlock == 2 && d1.flashPages == 4
    ensures BlockStart(d1, 1) == 2 && MigratePage(d1, 1, BlockStart(d1, 1)) == d1
    ensures MigratePage(d1, 1, BlockStart(d1, 1) + 1) == d1
  {
    assert BlockStart(d1, 1) == 2;
    assert MigratePage(d1, 1, 2) == d1;
    assert BestBlock(d1, 1) == 0 && BlockFull(d1, 0) && NoFreeOutside(d1, 1);
    assert MigratePage(d1, 1, 3) == d1;
  }

  lemma AliasEraseOne(d1: Disk) returns (e1: Disk)
    requires AliasRetired(d1)
    ensures Wf(d1) && d1.flashBlocks == 2
    ensures AliasFirstErased(e1) && Wf(e1) && EraseBlock(d1, 1) == e1
  {
    e1 := Disk(4, 4, 2, 2, [2, 3, 0, 1], [2, 3, -1, -1], [Valid, Valid, Free, Free], [0, 1], [30, 40, 0, 0], 0, 0);
    var r := EraseBlock(d1, 1);
    assert !InBlock(d1, 0, 1) && !InBlock(d1, 1, 1) && InBlock(d1, 2, 1) && InBlock(d1, 3, 1);
    assert r.flash == e1.flash;
    assert r.pageStatus == e1.pageStatus;
    assert r.pageToBlock == e1.pageToBlock;
  }

  lemma AliasRetryFails(e1: Disk)
    requires AliasFirstErased(e1)
    ensures Wf(e1) && e1.flashBlocks == 2
    ensures FindFreePage(e1, 1) == -1 && MinEraseBlock(e1) == 0
  {
    assert BestBlock(e1, 1) == 0;
    assert BlockFull(e1, 0);
    assert NoFreeOutside(e1, 1);
  }

  /** The fallback clean of block 0: logical block 2 moves to page 2 and
      logical block 3 to page 3, the page logical block 1 still points at. */
  lemma AliasSecondClean(e1: Disk) returns (e2: Disk)
    requires AliasFirstErased(e1)
    ensures Wf(e1) && e1.flashBlocks == 2
    ensures AliasSecondErased(e2) && Wf(e2) && CleanBlock(e1, 0) == e2
  {
    var m2 := AliasMoves(e1);
    e2 := AliasEraseZero(m2);
  }

  /** Both pages of block 0 move: logical block 2 to page 2, logical block 3
      to page 3. */
  lemma AliasMoves(e1: Disk) returns (m2: Disk)
    requires AliasFirstErased(e1)
    ensures Wf(e1) && e1.flashBlocks == 2
    ensures AliasMovedTwo(m2) && Wf(m2) && m2.flashBlocks == 2 && CleanBlock(e1, 0) == EraseBlock(m2, 0)
  {
    var m1 := AliasMoveFirst(e1);
    m2 := AliasMoveSecond(m1);
    TwoPageClean(e1, 0, m1, m2);
  }

  lemma AliasMoveFirst(e1: Disk) returns (m1: Disk)
    requires AliasFirstErased(e1)
    ensures Wf(e1) && e1.flashBlocks == 2 && e1.pagesPerBlock == 2 && e1.flashPages == 4 && BlockStart(e1, 0) == 0
    ensures AliasMovedOne(m1) && MigratePage(e1, 0, BlockStart(e1, 0)) == m1
  {
    m1 := Disk(4, 4, 2, 2, [2, 3, 2, 1], [2, 3, 2, -1], [Valid, Valid, Valid, Free], [0, 1], [30, 40, 30, 0], 0, 0);
    assert BestBlock(e1, 0) == 0 && BlockFull(e1, 0);
    assert e1.pageStatus[2] == Free && !InBlock(e1, 2, 0);
    assert FindFreePage(e1, 0) == 2;
    CurrentPageMoves(e1, 0, 0, 2);
    assert Install(e1, 2, 2, 30) == m1;
  }

  lemma AliasMoveSecond(m1: Disk) returns (m2: Disk)
    requires AliasMovedOne(m1)
    ensures Wf(m1) && BlockStart(m1, 0) + 1 == 1 && InBlock(m1, 1, 0)
    ensures AliasMovedTwo(m2) && Wf(m2) && m2.flashBlocks == 2
    ensures MigratePage(m1, 0, BlockStart(m1, 0) + 1) == m2
  {
    m2 := Disk(4, 4, 2, 2, [2, 3, 2, 3], [2, 3, 2, 3], [Valid, Valid, Valid, Valid], [0, 1], [30, 40, 30, 40], 0, 0);
    assert BestBlock(m1, 0) == 0 && BlockFull(m1, 0);
    assert m1.pageStatus[3] == Free && !InBlock(m1, 3, 0);
    assert FindFreePage(m1, 0) == 3;
    CurrentPageMoves(m1, 0, 1, 3);
    assert Install(m1, 3, 3, 40) == m2;
  }

  lemma AliasEraseZero(m2: Disk) returns (e2: Disk)
    requires AliasMovedTwo(m2)
    ensures Wf(m2) && m2.flashBlocks == 2
    ensures AliasSecondErased(e2) && Wf(e2) && EraseBlock(m2, 0) == e2
  {
    e2 := Disk(4, 4, 2, 2, [2, 3, 2, 3], [-1, -1, 2, 3], [Free, Free, Valid, Valid], [1, 1], [0, 0, 30, 40], 0, 0);
    var r := EraseBlock(m2, 0);
    assert InBlock(m2, 0, 0) && InBlock(m2, 1, 0) && !InBlock(m2, 2, 0) && !InBlock(m2, 3, 0);
    assert r.flash == e2.flash;
    assert r.pageStatus == e2.pageStatus;
    assert r.pageToBlock == e2.pageToBlock;
  }

  lemma AliasLastRetry(e2: Disk)
    requires AliasSecondErased(e2)
    ensures Wf(e2) && FindFreePage(e2, 0) == 0
  {
    assert BestBlock(e2, 0) == 0;
    assert FirstFreeIn(e2, 0) == 0;
  }
}

=== FILE: tables.dfy ===
/** The state of the flash translation layer (`struct disk` in disk.c): the
    forward map from logical blocks to flash pages, the reverse map, the
    per-page status, the per-block erase counters and the two operation
    counters, together with the contents of the flash medium itself. */
module Tables {

  import Counting

  /** The contents of one page (a DISK_BLOCK_SIZE buffer), kept opaque. */
  type Data = int

  /** The contents of a never-written logical block and of an erased page: all zero bytes. */
  const Zero: Data := 0

  /** PAGE_FREE, PAGE_VALID and PAGE_INVALID. */
  datatype Status = Free | Valid | Invalid

  /** One translation layer. `blockToPage[b]` is -1 for an unmapped block and
      `pageToBlock[p]` is -1 for a page that holds no logical block. `flash`
      stands for the medium: what a read of each page returns. */
  datatype Disk = Disk(
    diskBlocks: nat,
    flashPages: nat,
    pagesPerBlock: nat,
    flashBlocks: nat,
    blockToPage: seq<int>,
    pageToBlock: seq<int>,
    pageStatus: seq<Status>,
    eraseCount: seq<nat>,
    flash: seq<Data>,
    nreads: nat,
    nwrites: nat)

  /** Table sizes agree with the geometry and every stored index is -1 or in range. */
  predicate Wf(d: Disk) {
    && d.pagesPerBlock > 0
    && d.flashBlocks > 0
    && d.flashPages == d.flashBlocks * d.pagesPerBlock
    && |d.blockToPage| == d.diskBlocks
    && |d.pageToBlock| == d.flashPages
    && |d.pageStatus| == d.flashPages
    && |d.flash| == d.flashPages
    && |d.eraseCount| == d.flashBlocks
    && (forall b :: 0 <= b < d.diskBlocks ==> -1 <= d.blockToPage[b] < d.flashPages)
    && (forall p :: 0 <= p < d.flashPages ==> -1 <= d.pageToBlock[p] < d.diskBlocks)
  }

  /** Two states with the same geometry and the same number of logical blocks. */
  predicate SameShape(d: Disk, e: Disk) {
    && e.diskBlocks == d.diskBlocks
    && e.flashPages == d.flashPages
    && e.pagesPerBlock == d.pagesPerBlock
    && e.flashBlocks == d.flashBlocks
  }

  // ---------------------------------------------------------------- blocks

  /** First page of flash block `c` (`c * pages_per_block`). */
  function BlockStart(d: Disk, c: int): int {
    c * d.pagesPerBlock
  }

  /** Page `p` belongs to flash block `c`. No page belongs to a block outside
      [0, flashBlocks), so `InBlock(d, p, -1)` never holds. */
  predicate InBlock(d: Disk, p: int, c: int) {
    BlockStart(d, c) <= p < BlockStart(d, c) + d.pagesPerBlock
  }

  lemma MulLe(a: int, b: int, k: int)
    requires a <= b && k >= 0
    ensures a * k <= b * k
  {
    assert b * k - a * k == (b - a) * k;
  }

  lemma MulSucc(c: int, k: int)
    ensures (c + 1) * k == c * k + k
  {
  }

  /** Block `c` of the medium is a page range inside [0, flashPages), and
      block `c + 1` starts where it ends. */
  lemma BlockBounds(d: Disk, c: int)
    requires Wf(d) && 0 <= c < d.flashBlocks
    ensures 0 <= BlockStart(d, c)
    ensures BlockStart(d, c) + d.pagesPerBlock <= d.flashPages
    ensures BlockStart(d, c + 1) == BlockStart(d, c) + d.pagesPerBlock
  {
    MulLe(0, c, d.pagesPerBlock);
    MulSucc(c, d.pagesPerBlock);
    MulLe(c + 1, d.flashBlocks, d.pagesPerBlock);
  }

  /** Block 0 starts at page 0 and the block after the last one starts at flashPages. */
  lemma BlockStartEnds(d: Disk)
    requires Wf(d)
    ensures BlockStart(d, 0) == 0 && BlockStart(d, d.flashBlocks) == d.flashPages
  {
  }

  /** Blocks are disjoint page ranges. */
  lemma BlocksDisjoint(d: Disk, p: int, c: int, e: int)
    requires d.pagesPerBlock > 0
    requires InBlock(d, p, c) && InBlock(d, p, e)
    ensures c == e
  {
    if c < e {
      MulSucc(c, d.pagesPerBlock);
      MulLe(c + 1, e, d.pagesPerBlock);
    } else if e < c {
      MulSucc(e, d.pagesPerBlock);
      MulLe(e + 1, c, d.pagesPerBlock);
    }
  }

  /** Every page of the medium lies in one of its blocks. */
  lemma PageBlock(d: Disk, p: int) returns (c: int)
    requires Wf(d) && 0 <= p < d.flashPages
    ensures 0 <= c < d.flashBlocks && InBlock(d, p, c)
  {
    var k := d.pagesPerBlock;
    c := p / k;
    assert c * k <= p < c * k + k;
    if c >= d.flashBlocks {
      MulLe(d.flashBlocks, c, k);
    }
  }

  // --------------------------------------------------------- coherence

  /** Forward and reverse maps agree: a mapped logical block owns a Valid page
      that points back at it, a Valid page is owned by the logical block it
      points at, and a page that is not Valid points at no logical block. */
  predicate Coherent(d: Disk)
    requires Wf(d)
  {
    && (forall b :: 0 <= b < d.diskBlocks && d.blockToPage[b] >= 0 ==>
          d.pageStatus[d.blockToPage[b]] == Valid && d.pageToBlock[d.blockToPage[b]] == b)
    && (forall p :: 0 <= p < d.flashPages && d.pageStatus[p] == Valid ==>
          d.pageToBlock[p] >= 0 && d.blockToPage[d.pageToBlock[p]] == p)
    && (forall p :: 0 <= p < d.flashPages && d.pageStatus[p] != Valid ==> d.pageToBlock[p] == -1)
  }

  predicate Inv(d: Disk) {
    Wf(d) && Coherent(d)
  }

  /** What a read of logical block `b` yields: zero data while unmapped,
      otherwise the medium's contents at its page. */
  function View(d: Disk, b: int): Data
    requires Wf(d) && 0 <= b < d.diskBlocks
  {
    if d.blockToPage[b] < 0 then Zero else d.flash[d.blockToPage[b]]
  }

  /** The number of Free pages of the whole medium. */
  function FreePages(d: Disk): nat {
    Counting.Count(d.pageStatus, Free)
  }

  /** The number of pages of block `c` whose status is `st`. */
  function CountIn(d: Disk, c: int, st: Status): nat
    requires Wf(d) && 0 <= c < d.flashBlocks
  {
    BlockBounds(d, c);
    Counting.Count(d.pageStatus[BlockStart(d, c)..BlockStart(d, c) + d.pagesPerBlock], st)
  }

  /** No page outside block `avoid` is Free. */
  predicate NoFreeOutside(d: Disk, avoid: int)
    requires Wf(d)
  {
    forall p :: 0 <= p < d.flashPages && !InBlock(d, p, avoid) ==> d.pageStatus[p] != Free
  }

  /** No page of block `c` is Free. */
  predicate BlockFull(d: Disk, c: int)
    requires Wf(d)
  {
    forall p :: 0 <= p < d.flashPages && InBlock(d, p, c) ==> d.pageStatus[p] != Free
  }

  /** A positive Free count means some page of the medium is Free. */
  lemma FreeWitness(d: Disk)
    requires Wf(d) && FreePages(d) > 0
    ensures !NoFreeOutside(d, -1)
  {
    Counting.CountZero(d.pageStatus, Free);
  }

  // ------------------------------------------------------------ create

  /** `disk_create`: every logical block unmapped, every page Free with no
      owner, every erase counter and both operation counters zero. The medium
      keeps whatever it holds. */
  function DiskCreate(flashPages: nat, pagesPerBlock: nat, diskBlocks: nat, medium: seq<Data>): (d: Disk)
    requires pagesPerBlock > 0 && flashPages >= pagesPerBlock && flashPages % pagesPerBlock == 0
    requires |medium| == flashPages
    ensures Inv(d)
    ensures d.diskBlocks == diskBlocks && d.flashPages == flashPages && d.pagesPerBlock == pagesPerBlock
    ensures d.flashBlocks == flashPages / pagesPerBlock && d.flash == medium
    ensures forall b :: 0 <= b < diskBlocks ==> d.blockToPage[b] == -1 && View(d, b) == Zero
    ensures forall p :: 0 <= p < flashPages ==> d.pageStatus[p] == Free && d.pageToBlock[p] == -1
    ensures FreePages(d) == flashPages
    ensures forall c :: 0 <= c < d.flashBlocks ==> d.eraseCount[c] == 0
    ensures d.nreads == 0 && d.nwrites == 0
  {
    var blocks := flashPages / pagesPerBlock;
    assert blocks * pagesPerBlock == flashPages;
    var d := Disk(diskBlocks, flashPages, pagesPerBlock, blocks,
                  seq(diskBlocks, _ => -1), seq(flashPages, _ => -1), seq(flashPages, _ => Free),
                  seq(blocks, _ => 0), medium, 0, 0);
    Counting.CountAll(d.pageStatus, Free);
    d
  }

  // ------------------------------------------------------ table updates

  /** The first step of `disk_write`: the logical block's current page, if
      any, becomes Invalid and loses its owner. The forward entry is left as
      it is until the new page is installed. */
  function Retire(d: Disk, b: int): (r: Disk)
    requires Wf(d) && 0 <= b < d.diskBlocks
    ensures Wf(r) && SameShape(d, r)
    ensures r.blockToPage == d.blockToPage && r.flash == d.flash && r.eraseCount == d.eraseCount
    ensures r.nreads == d.nreads && r.nwrites == d.nwrites
    ensures d.blockToPage[b] >= 0 ==>
              && r.pageStatus == d.pageStatus[d.blockToPage[b] := Invalid]
              && r.pageToBlock == d.pageToBlock[d.blockToPage[b] := -1]
    ensures d.blockToPage[b] < 0 ==> r == d
  {
    var prev := d.blockToPage[b];
    if prev >= 0 then
      d.(pageStatus := d.pageStatus[prev := Invalid], pageToBlock := d.pageToBlock[prev := -1])
    else d
  }

  /** Storing `x` for logical block `b` on page `p`: the medium is written,
      then the forward entry, the reverse entry and the status are set. */
  function Install(d: Disk, b: int, p: int, x: Data): (r: Disk)
    requires Wf(d) && 0 <= b < d.diskBlocks && 0 <= p < d.flashPages
    ensures Wf(r) && SameShape(d, r)
    ensures r.flash == d.flash[p := x]
    ensures r.blockToPage == d.blockToPage[b := p] && r.pageToBlock == d.pageToBlock[p := b]
    ensures r.pageStatus == d.pageStatus[p := Valid]
    ensures r.eraseCount == d.eraseCount && r.nreads == d.nreads && r.nwrites == d.nwrites
  {
    d.(flash := d.flash[p := x],
       blockToPage := d.blockToPage[b := p],
       pageToBlock := d.pageToBlock[p := b],
       pageStatus := d.pageStatus[p := Valid])
  }

  /** Retiring the old page of `b` and installing `x` on the Free page `p`
      keeps the maps coherent, changes what `b` reads to `x` and nothing
      else, and uses up exactly one Free page. */
  lemma CommitUpdates(d: Disk, b: int, p: int, x: Data)
    requires Inv(d) && 0 <= b < d.diskBlocks && 0 <= p < d.flashPages
    requires d.pageStatus[p] == Free
    ensures Inv(Install(Retire(d, b), b, p, x))
    ensures View(Install(Retire(d, b), b, p, x), b) == x
    ensures forall e :: 0 <= e < d.diskBlocks && e != b ==>
              View(Install(Retire(d, b), b, p, x), e) == View(d, e)
    ensures FreePages(Install(Retire(d, b), b, p, x)) + 1 == FreePages(d)
    ensures Install(Retire(d, b), b, p, x).eraseCount == d.eraseCount
    ensures var prev := d.blockToPage[b];
            prev >= 0 ==> (Install(Retire(d, b), b, p, x).pageStatus[prev] == Invalid
                           && Install(Retire(d, b), b, p, x).pageToBlock[prev] == -1)
  {
    var m := Retire(d, b);
    var r := Install(m, b, p, x);
    var prev := d.blockToPage[b];
    assert prev != p;
    if prev >= 0 {
      Counting.CountUpdate(d.pageStatus, prev, Invalid, Free);
    }
    assert m.pageStatus[p] == Free;
    Counting.CountUpdate(m.pageStatus, p, Valid, Free);
    forall e | 0 <= e < d.diskBlocks && e != b
      ensures r.blockToPage[e] == d.blockToPage[e]
      ensures d.blockToPage[e] >= 0 ==> d.blockToPage[e] != p && d.blockToPage[e] != prev
    {
    }
  }

  /** The erase step of `clean_block`: the medium resets the block's pages to
      zero, its erase counter goes up by one, and its pages become Free with
      no owner. Forward entries are not touched. */
  function EraseBlock(d: Disk, c: int): (r: Disk)
    requires Wf(d) && 0 <= c < d.flashBlocks
    ensures Wf(r) && SameShape(d, r)
    ensures forall p :: 0 <= p < d.flashPages && InBlock(d, p, c) ==>
              r.pageStatus[p] == Free && r.pageToBlock[p] == -1 && r.flash[p] == Zero
    ensures forall p :: 0 <= p < d.flashPages && !InBlock(d, p, c) ==>
              r.pageStatus[p] == d.pageStatus[p] && r.pageToBlock[p] == d.pageToBlock[p] && r.flash[p] == d.flash[p]
    ensures r.eraseCount == d.eraseCount[c := d.eraseCount[c] + 1]
    ensures r.blockToPage == d.blockToPage && r.nreads == d.nreads && r.nwrites == d.nwrites
  {
    d.(flash := seq(d.flashPages, p requires 0 <= p < d.flashPages =>
                      if InBlock(d, p, c) then Zero else d.flash[p]),
       eraseCount := d.eraseCount[c := d.eraseCount[c] + 1],
       pageStatus := seq(d.flashPages, p requires 0 <= p < d.flashPages =>
                      if InBlock(d, p, c) then Free else d.pageStatus[p]),
       pageToBlock := seq(d.flashPages, p requires 0 <= p < d.flashPages =>
                      if InBlock(d, p, c) then -1 else d.pageToBlock[p]))
  }

  /** Erasing block `c` frees exactly the pages of `c` that were not Free. */
  lemma EraseFrees(d: Disk, c: int)
    requires Wf(d) && 0 <= c < d.flashBlocks
    ensures FreePages(EraseBlock(d, c)) == FreePages(d) + d.pagesPerBlock - CountIn(d, c, Free)
  {
    BlockBounds(d, c);
    var lo := BlockStart(d, c);
    var hi := lo + d.pagesPerBlock;
    var t := EraseBlock(d, c).pageStatus;
    forall i | 0 <= i < |t| && !(lo <= i < hi)
      ensures t[i] == d.pageStatus[i]
    {
      assert !InBlock(d, i, c);
    }
    forall i | lo <= i < hi
      ensures t[i] == Free
    {
      assert InBlock(d, i, c);
    }
    Counting.CountFill(d.pageStatus, t, lo, hi, Free);
  }
}

=== FILE: translation.dfy ===
/** `disk_read` and `disk_write` as disk.c writes them. A write first retires
    the logical block's current page, then asks `find_free_page(d, -1)` for a
    page; when none is Free it cleans the block `select_block_to_clean`
    picks and asks again avoiding that block, and when that fails too it
    cleans the least-erased block and asks once more avoiding it. */
module Translation {

  import opened Tables
  import opened Allocator
  import opened Cleaner

  /** Outcome of `disk_read`: -1 for a block number out of range (nothing
      changes), otherwise the data read and the state with the read counted. */
  datatype ReadReply = ReadRejected | ReadDone(data: Data, disk: Disk)

  /** Outcome of `disk_write`: -1 for a block number out of range (nothing
      changes); success with the new state; or the point where no page was
      found. From there disk.c passes page index -1 to the flash write,
      unmaps the block, passes page index -1 to the reverse-map and status
      stores, and reports success; the model does not follow it. */
  datatype WriteReply = WriteRejected | WriteDone(disk: Disk) | WriteFault(disk: Disk)

  /** `disk_read`: a block in range reads as its current view, zero while
      unmapped, and only the read counter changes. */
  function DiskRead(d: Disk, b: int): (r: ReadReply)
    requires Wf(d)
    ensures r.ReadRejected? <==> !(0 <= b < d.diskBlocks)
    ensures r.ReadDone? ==> r.data == View(d, b) && r.disk == d.(nreads := d.nreads + 1)
    ensures r.ReadDone? && d.blockToPage[b] < 0 ==> r.data == Zero
    ensures r.ReadDone? && d.blockToPage[b] >= 0 ==> r.data == d.flash[d.blockToPage[b]]
  {
    if b < 0 || b >= d.diskBlocks then ReadRejected
    else
      var p := d.blockToPage[b];
      ReadDone(if p < 0 then Zero else d.flash[p], d.(nreads := d.nreads + 1))
  }

  /** A state and the page the allocator settled on (-1 for none). */
  datatype Attempt = Attempt(disk: Disk, page: int)

  /** What an allocation may do to the state: same shape and operation
      counters, no erase counter goes down, and the page found is Free. */
  predicate AllocOutcome(d: Disk, a: Attempt)
    requires Wf(d)
  {
    && Wf(a.disk) && SameShape(d, a.disk)
    && a.disk.nreads == d.nreads && a.disk.nwrites == d.nwrites
    && (forall c :: 0 <= c < d.flashBlocks ==> a.disk.eraseCount[c] >= d.eraseCount[c])
    && (a.page == -1 || (0 <= a.page < d.flashPages && a.disk.pageStatus[a.page] == Free))
  }

  /** Cleaning block `v` and asking for a page outside it. */
  function CleanAndRetry(d: Disk, v: nat): (a: Attempt)
    requires Wf(d) && v < d.flashBlocks
    ensures AllocOutcome(d, a)
    ensures a.disk.eraseCount[v] == d.eraseCount[v] + 1
    ensures a.page >= 0 && InBlock(d, a.page, v) ==> v == 0
  {
    var e := CleanBlock(d, v);
    Attempt(e, FindFreePage(e, v))
  }

  /** The garbage-collection path of `disk_write`, entered when
      `find_free_page(d, -1)` found nothing. */
  function Reclaim(d: Disk): (a: Attempt)
    requires Wf(d)
    ensures AllocOutcome(d, a)
    ensures exists c :: 0 <= c < d.flashBlocks && a.disk.eraseCount[c] > d.eraseCount[c]
  {
    var v := SelectBlockToClean(d);
    var first := if v >= 0 then CleanAndRetry(d, v) else Attempt(d, -1);
    if first.page >= 0 then
      assert first.disk.eraseCount[v] > d.eraseCount[v];
      first
    else
      var c := MinEraseBlock(first.disk);
      var second := CleanAndRetry(first.disk, c);
      assert AllocOutcome(d, first);
      AllocTrans(d, first, second);
      assert second.disk.eraseCount[c] > d.eraseCount[c];
      second
  }

  /** Two allocation steps in a row are an allocation step. */
  lemma AllocTrans(d: Disk, a: Attempt, b: Attempt)
    requires Wf(d) && AllocOutcome(d, a) && AllocOutcome(a.disk, b)
    ensures AllocOutcome(d, b)
  {
  }

  /** The allocation part of `disk_write`, on the state after the old page
      has been retired. A page is found without cleaning exactly when some
      page is Free. */
  function Allocate(d: Disk): (a: Attempt)
    requires Wf(d)
    ensures AllocOutcome(d, a)
    ensures !NoFreeOutside(d, -1) ==> a.disk == d && a.page >= 0
  {
    var p := FindFreePage(d, -1);
    if p >= 0 then Attempt(d, p) else Reclaim(d)
  }

  /** Storing `x` for `b` on page `p` and counting the write. */
  function Commit(d: Disk, b: int, p: int, x: Data): (r: Disk)
    requires Wf(d) && 0 <= b < d.diskBlocks && 0 <= p < d.flashPages
    ensures Wf(r) && SameShape(d, r)
    ensures View(r, b) == x && r.pageStatus[p] == Valid && r.pageToBlock[p] == b
    ensures r.blockToPage == d.blockToPage[b := p] && r.pageToBlock == d.pageToBlock[p := b]
    ensures r.pageStatus == d.pageStatus[p := Valid] && r.flash == d.flash[p := x]
    ensures r.nwrites == d.nwrites + 1 && r.nreads == d.nreads && r.eraseCount == d.eraseCount
  {
    Install(d, b, p, x).(nwrites := d.nwrites + 1)
  }

  /** `disk_write`. A block number out of range is refused and nothing else
      is. On success the block owns a Valid page holding the data written,
      its old page (if it moved) no longer points back at it, the write is
      counted, the read counter is untouched and no erase counter goes down.
      When no page is found nothing has been counted and no erase counter has
      gone down. */
  function DiskWrite(d: Disk, b: int, x: Data): (r: WriteReply)
    requires Wf(d)
    ensures r.WriteRejected? <==> !(0 <= b < d.diskBlocks)
    ensures r.WriteDone? ==>
              && Wf(r.disk) && SameShape(d, r.disk) && View(r.disk, b) == x
              && r.disk.nwrites == d.nwrites + 1 && r.disk.nreads == d.nreads
              && (forall c :: 0 <= c < d.flashBlocks ==> r.disk.eraseCount[c] >= d.eraseCount[c])
    ensures r.WriteDone? ==>
              && 0 <= r.disk.blockToPage[b] < r.disk.flashPages
              && r.disk.pageStatus[r.disk.blockToPage[b]] == Valid
              && r.disk.pageToBlock[r.disk.blockToPage[b]] == b
              && r.disk.flash[r.disk.blockToPage[b]] == x
    ensures r.WriteDone? && 0 <= b < d.diskBlocks && d.blockToPage[b] >= 0 && r.disk.blockToPage[b] != d.blockToPage[b] ==>
              r.disk.pageToBlock[d.blockToPage[b]] != b
    ensures r.WriteFault? ==>
              && Wf(r.disk) && SameShape(d, r.disk) && r.disk.nwrites == d.nwrites && r.disk.nreads == d.nreads
              && (forall c :: 0 <= c < d.flashBlocks ==> r.disk.eraseCount[c] >= d.eraseCount[c])
  {
    if b < 0 || b >= d.diskBlocks then WriteRejected
    else
      AllocateReleases(d, b);
      var a := Allocate(Retire(d, b));
      if a.page < 0 then WriteFault(a.disk)
      else WriteDone(Commit(a.disk, b, a.page, x))
  }

  /** Logical block `b` is still mapped to page `prev`, which no longer
      points back at it: the state of the old page between its retirement
      and the new mapping. */
  ghost predicate Released(d: Disk, b: int, prev: int)
    requires Wf(d)
  {
    0 <= b < d.diskBlocks && 0 <= prev < d.flashPages && d.blockToPage[b] == prev && d.pageToBlock[prev] != b
  }

  /** Cleaning neither moves a block whose page does not point back at it
      nor gives that page back to it. */
  lemma CleanKeepsReleased(d: Disk, v: nat, b: int, prev: int)
    requires Wf(d) && v < d.flashBlocks && Released(d, b, prev)
    ensures Released(CleanBlock(d, v), b, prev)
  {
  }

  /** The cleaning path keeps the retired page released. */
  lemma ReclaimKeepsReleased(d: Disk, b: int, prev: int)
    requires Wf(d) && Released(d, b, prev)
    ensures Released(Reclaim(d).disk, b, prev)
  {
    var v := SelectBlockToClean(d);
    if v >= 0 {
      CleanKeepsReleased(d, v, b, prev);
    }
    var first := if v >= 0 then CleanAndRetry(d, v) else Attempt(d, -1);
    if first.page < 0 {
      CleanKeepsReleased(first.disk, MinEraseBlock(first.disk), b, prev);
    }
  }

  /** After the old page of `b` is retired, allocation, with or without
      cleaning, leaves it released. */
  lemma AllocateReleases(d: Disk, b: int)
    requires Wf(d) && 0 <= b < d.diskBlocks
    ensures d.blockToPage[b] >= 0 ==> Released(Allocate(Retire(d, b)).disk, b, d.blockToPage[b])
  {
    if d.blockToPage[b] >= 0 {
      var d1 := Retire(d, b);
      assert Released(d1, b, d.blockToPage[b]);
      if FindFreePage(d1, -1) < 0 {
        ReclaimKeepsReleased(d1, b, d.blockToPage[b]);
      }
    }
  }

  // ------------------------------------------------------------ properties

  /** While some page is Free, a write needs no cleaning: it is the commit of
      `x` on the page `find_free_page(d, -1)` offers, after retiring the old
      page. The maps stay coherent, the block reads `x`, every other block
      reads as before, the old page is Invalid and unowned, one Free page is
      used up and no erase counter moves. */
  lemma WriteNoGc(d: Disk, b: int, x: Data)
    requires Inv(d) && 0 <= b < d.diskBlocks && FreePages(d) > 0
    ensures DiskWrite(d, b, x).WriteDone?
    ensures var r := DiskWrite(d, b, x).disk;
      && Inv(r)
      && View(r, b) == x
      && (forall e :: 0 <= e < d.diskBlocks && e != b ==> View(r, e) == View(d, e))
      && (d.blockToPage[b] >= 0 ==> r.pageStatus[d.blockToPage[b]] == Invalid && r.pageToBlock[d.blockToPage[b]] == -1)
      && FreePages(r) + 1 == FreePages(d)
      && r.eraseCount == d.eraseCount
  {
    var d1 := Retire(d, b);
    FreeWitness(d);
    var w :| 0 <= w < d.flashPages && d.pageStatus[w] == Free;
    assert d1.pageStatus[w] == Free;
    var p := FindFreePage(d1, -1);
    assert p >= 0;
    assert Allocate(d1) == Attempt(d1, p);
    assert d.pageStatus[p] == Free;
    CommitUpdates(d, b, p, x);
  }

  /** Reading after a write that needed no cleaning: the block written reads
      the new data and every other block reads what it read before. */
  lemma ReadAfterWrite(d: Disk, b: int, x: Data, e: int)
    requires Inv(d) && 0 <= b < d.diskBlocks && FreePages(d) > 0 && 0 <= e < d.diskBlocks
    ensures DiskWrite(d, b, x).WriteDone?
    ensures DiskRead(DiskWrite(d, b, x).disk, e).ReadDone?
    ensures DiskRead(DiskWrite(d, b, x).disk, e).data == if e == b then x else DiskRead(d, e).data
  {
    WriteNoGc(d, b, x);
  }

  /** Cleaning only starts when no page at all is Free. After cleaning a
      victim other than block 0 the retry, which avoids the victim, finds
      nothing: the Free pages are all in the victim. */
  lemma RetryAfterCleanFails(d: Disk, v: nat)
    requires Wf(d) && 0 < v < d.flashBlocks && NoFreeOutside(d, -1)
    ensures FindFreePage(CleanBlock(d, v), v) == -1
  {
    var e := CleanBlock(d, v);
    forall p | 0 <= p < d.flashPages && !InBlock(d, p, v)
      ensures e.pageStatus[p] != Free
    {
    }
    assert NoFreeOutside(e, v);
    var best := BestBlock(e, v);
    forall p | 0 <= p < e.flashPages && InBlock(e, p, best)
      ensures e.pageStatus[p] != Free
    {
      OtherBlocksDisjoint(e, best, v);
    }
  }

  /** When a write has to clean, every logical block mapped into the victim
      is dropped by that cleaning: there is no Free page outside the victim to
      move it to, so it stays mapped to a page the erase has made Free and
      reads zero. */
  lemma GcDropsVictimBlocks(d: Disk, b: int, e: int)
    requires Wf(d) && 0 <= b < d.diskBlocks && FindFreePage(Retire(d, b), -1) == -1
    requires SelectBlockToClean(Retire(d, b)) >= 0
    requires 0 <= e < d.diskBlocks && e != b
    requires d.blockToPage[e] >= 0 && InBlock(d, d.blockToPage[e], SelectBlockToClean(Retire(d, b)))
    ensures var r := CleanBlock(Retire(d, b), SelectBlockToClean(Retire(d, b)));
            View(r, e) == Zero && !Coherent(r)
  {
    var d1 := Retire(d, b);
    var v := SelectBlockToClean(d1);
    assert d1.blockToPage[e] == d.blockToPage[e];
    assert NoFreeOutside(d1, v);
    CleanWithoutSpareDrops(d1, v, e);
  }
}
